=== FILE: README.md ===
# VMHub data pipeline — a Dafny model

This project models the core of the VMHub data pipeline, a batch job that
pulls paginated customer records from the VMHub REST API for one company
(identified by its CNPJ), stages every page as newline-delimited JSON in a
Google Cloud Storage bucket, and then decides whether to load the collected
records into BigQuery.

The model follows the program's modules:

| file | module | what it models |
|---|---|---|
| `outcomes.dfy` | `Outcomes` | `Option`, `Result` and the exceptions the core raises (`ValueError`, `VMHubAPIError`, `KeyError`, and the `AttributeError` of the load call) |
| `text.dfy` | `Text` | the Python string operations used: `rstrip`, `replace`, `join`, `split`, `str(int)`, zero padding, each with its inverse |
| `json.dfy` | `Json` | JSON values as returned by the API |
| `settings.dfy` | `Config` | `Settings` and `_validate_settings`, with the environment as a map |
| `endpoints.dfy` | `Endpoints` | the endpoint table (`clientes`, page size 10) |
| `vmhub_client.dfy` | `VMHub` | `VMHubClient`: base-URL normalisation, the retry/backoff loop, `get_data` |
| `gcs_helper.dfy` | `Storage` | `GCSHelper.upload_json`: the NDJSON payload and the `gs://` URI |
| `bigquery_helper.dfy` | `BigQuery` | `_create_schema_field`, the full table id, the inputs of a load |
| `main.dfy` | `Pipeline` | `format_cnpj`, `get_storage_path`, `process_endpoint`, `main` |

The outside world enters as parameters:

- The VMHub server is a function from a request and an attempt number to
  what that attempt got: a decoded JSON body, an HTTP error status, or
  another request failure.
- `random.uniform` is a draw in [0, 1] for each attempt.
- The clock is a function from the endpoint's position and the page
  number to the hour-precision time `datetime.now` would give when that
  page is uploaded.
- `json.dumps` and `urllib.parse.quote` are uninterpreted functions.
- Uploads are returned as `Blob` values instead of being sent.

Sleeping never changes which attempt comes next. So the retry loop is
modelled in two parts. `VMHub.Attempts` decides the attempts and the
outcome. `VMHub.Backoffs` and `VMHub.Sleeps` give the backoff in force and
the delay for each of the `attempts - 1` sleeps.

### Where the code differs from its comments

The comment in the retry loop (src/api/vmhub_client.py:92) reads a 500 on
a page after the first as a sign that there is no more data. The code does
not end the stream there. The client raises `VMHubAPIError`, and
`process_endpoint` counts the page as a failure and moves on to the next
page (`VMHub.LaterPageServerErrorRaises`,
`Pipeline.LaterPageServerErrorIsSkipped`). The model follows the code.

### Details of the code the model keeps

- The retry loop tests the status with `== 500` exactly; any other status
  on a later page is retried.
- The API receives the raw `VMHUB_CNPJ`. Only the storage paths and the
  dataset name use the formatted CNPJ.
- `main` builds the client with `max_retries=3` and `initial_backoff=2.0`.
  The endpoint's own `max_retries` field is never read.
- With a negative `max_retries` the retry loop never runs and returns
  `None`. `get_data` then raises "Unexpected response format".

## Model

| member | source | states |
|---|---|---|
| Config.Missing | src/config/settings.py:26-34 | the missing list holds exactly the required variables that are unset or empty, in declaration order |
| Config.LoadSettings | src/config/settings.py:17-36 | a `ValueError` is raised exactly when some required variable is unset or empty, and its message is `MissingMessage` of the missing list; otherwise every field is that variable's non-empty value |
| Config.ReadMissingMessage | src/config/settings.py:36 | the comma-joined variable names can be read back from the error message |
| Config.ValidationErrorListsMissing | src/config/settings.py:34-36 | once any required variable is unset or empty, validation raises, and its message lists exactly the missing variables, in declaration order |
| VMHub.NewClient | src/api/vmhub_client.py:19-44 | the stored base URL is the given one minus all trailing slashes, and the other settings are kept as given |
| VMHub.AfterAttempt | src/api/vmhub_client.py:65-99 | after one attempt the loop retries exactly when the attempt failed retryably and budget is left. It stops with the body of an answered attempt. Otherwise it raises retries-exhausted once the budget is spent, or raises at once on a 500 for a later page |
| VMHub.Attempts | src/api/vmhub_client.py:62-116 | the retry loop sends at most `max_retries + 1` attempts. Every attempt but the last led to a retry, and the last attempt's decision is the outcome |
| VMHub.MakeRequest | src/api/vmhub_client.py:52-116 | every attempt goes to `Url`, that is `base_url/endpoint`. A returned body is the last attempt's answer. A raised error follows a last attempt that got no answer, and is either retries-exhausted after `max_retries + 1` attempts or a later-page 500 within the budget. A negative `max_retries` gives the `None` result with no attempt |
| VMHub.FirstAnswerReturned | src/api/vmhub_client.py:65-75 | if the first j attempts fail retryably and attempt j is answered, exactly j + 1 attempts and j sleeps happen and the body is returned |
| VMHub.AllRetryableFailuresExhaust | src/api/vmhub_client.py:77-90 | if every attempt fails retryably, exactly `max_retries + 1` attempts and `max_retries` sleeps happen and retries-exhausted is raised |
| VMHub.NoAnswerRaises | src/api/vmhub_client.py:65-99 | if no attempt is answered, the request raises `VMHubAPIError` |
| VMHub.LaterPageServerErrorRaises | src/api/vmhub_client.py:92-99 | a 500 on a page after the first raises at once, with no further attempt or sleep, unless it was the last attempt of the budget |
| VMHub.BackoffIsGeometric | src/api/vmhub_client.py:63-116 | `Backoffs`, the backoff in force at the k-th sleep, after starting at `initial_backoff` and multiplying by `backoff_factor` after each sleep, is `initial_backoff * backoff_factor^k` |
| VMHub.SleepBounds | src/api/vmhub_client.py:101-103 | every sleep in `Sleeps`, each computed by `SleepTime`, lies between `min(backoff, max_backoff)` and `max_backoff`, jitter included |
| VMHub.SleepsNonDecreasing | src/api/vmhub_client.py:101-116 | with a growth factor of at least 1.1, successive sleeps never get shorter |
| VMHub.TotalSleepBound | src/api/vmhub_client.py:101-115 | one request sleeps at most `max_retries * max_backoff` in total |
| VMHub.GetData | src/api/vmhub_client.py:118-164 | a page size above 10 raises `ValueError` before any attempt. Otherwise the request (`PageRequest`) carries the quoted CNPJ, the page and the size. A list body from the retry loop is returned unchanged, a non-list body raises unexpected-format, and an error from the retry loop is raised unchanged |
| Storage.UploadJson | src/utils/gcs_helper.py:26-39 | the blob has the requested name, holds the NDJSON payload of the data (see `Storage.NdjsonLines`) and has the URI `gs://bucket/blob` (see `Storage.ParseGsUriRoundTrip`) |
| Storage.NdjsonSmallCases | src/utils/gcs_helper.py:28-33 | an empty list uploads the empty text; a one-element list or a single mapping uploads one serialisation |
| Storage.NdjsonLines | src/utils/gcs_helper.py:28-30 | for `NdjsonPayload` of a non-empty list, splitting the payload at newlines gives back the serialised records in order, and there are exactly n - 1 newlines |
| Storage.ParseGsUriRoundTrip | src/utils/gcs_helper.py:37 | bucket and blob name can be read back from the URI `GsUri` builds |
| BigQuery.CreateSchemaField | src/utils/bigquery_helper.py:34-43 | a missing name raises `KeyError('name')` before a missing type raises `KeyError('type')`. Name and type are copied and the mode defaults to NULLABLE. A RECORD with `fields` translates each sub-field in order, and anything else gets no sub-fields |
| BigQuery.CreateSchemaFields | src/utils/bigquery_helper.py:51 | the list translation either translates every descriptor in order or raises the first failing descriptor's error |
| BigQuery.CreateSchemaFieldSucceedsIff | src/utils/bigquery_helper.py:34-43 | the translation succeeds exactly on descriptor trees where every visited node has a name and a type |
| BigQuery.CreateDescribeRoundTrip | src/utils/bigquery_helper.py:34-43 | translating the descriptor written from a schema field gives that field back |
| BigQuery.FullTableIdParts | src/utils/bigquery_helper.py:48 | `FullTableId` is `project.dataset.table` for any ids, and for dot-free ids it splits back into its three parts |
| BigQuery.PlanLoad | src/utils/bigquery_helper.py:45-51 | a load is planned exactly when the schema translates. It targets the full table id, carries the translated schema and the given URIs |
| Pipeline.FormatCnpj | src/main.py:22-24 | the formatted CNPJ is the order-preserving filter of the input that drops every `.`, `/` and `-` and keeps every other character, repeats included |
| Pipeline.FormatCnpjIsFilter | src/main.py:22-24 | the three successive removals equal one order-preserving filter of the punctuation |
| Pipeline.FormatCnpjIdempotent | src/main.py:22-24 | formatting a formatted CNPJ changes nothing |
| Pipeline.FormatCnpjKeepsUnpunctuated | src/main.py:22-24 | a CNPJ without punctuation is returned unchanged |
| Pipeline.DatasetTableIdParts | src/main.py:142-145 | the dataset `DatasetId`, `CNPJ_<formatted>_RAW`, is dot-free, so full table ids built on it split back into project, dataset and table |
| Pipeline.StoragePathIsJoin | src/main.py:26-31 | `StoragePath`, the path `get_storage_path` builds, is the seven segments `CNPJ_<cnpj>`, endpoint, year, month, day, hour and `response_pg<page>.json` joined by `/` |
| Pipeline.StoragePathRoundTrip | src/main.py:26-31 | for a slash-free CNPJ and endpoint, the path gives back the CNPJ, endpoint, hour and page it was built from |
| Pipeline.StoragePathInjective | src/main.py:26-31 | two pages of one run within the same hour never share a blob name |
| Pipeline.MainClient | src/main.py:132-137 | the client `main` uses has three retries, a two-second first backoff, the default 32-second cap and factor 2, and the settings' base URL without trailing slashes |
| Pipeline.MainClientSleepBound | src/main.py:132-137 | with that client one page request sleeps at most 96 seconds in all |
| Pipeline.StepStored | src/main.py:59-80 | storing a non-empty page appends its records and its blob and clears the failure counter |
| Pipeline.StepFailed | src/main.py:85-93 | a page that raised `VMHubAPIError` adds nothing and counts one more failure in a row |
| Pipeline.ProcessEndpoint | src/main.py:33-120 | given a `StopPage`, the loop stops on the first empty page, on the third `VMHubAPIError` in a row, or on any other exception. Every earlier page was stored or skipped. The records are those of the stored pages in page order, and the blobs are their `Stage` uploads (`get_storage_path` plus `upload_json`). The load is reached exactly when no exception escaped and records were collected |
| Pipeline.FiniteServerSource | src/api/vmhub_client.py:144-155 | if the server has no records past some page, `get_data` returns none there either |
| Pipeline.FiniteSourceStops | src/main.py:49-93 | a page source with no records past some page has a stop page at most three pages later, so the loop ends |
| Pipeline.RunStopsAtStopPage | src/main.py:49-93 | a finished run stopped at a stop page, so requiring one excludes only the runs that never end |
| Pipeline.RunPipeline | src/main.py:122-167 | a settings failure is raised. Otherwise every configured endpoint gets its own complete run over `SourceFor` (`get_data` with the raw CNPJ and the endpoint's page size) and its own clock readings, and its uploads go through `StagingFor`: the configured bucket, the formatted CNPJ and the endpoint's name, whatever happened to the others |
| Pipeline.RunOfDataThenEmpty | src/main.py:44-96 | with n non-empty pages before an empty one, the run stops at page n with one blob per page in order, and loads exactly when n > 0 |
| Pipeline.TwoFullPagesThenEmpty | src/main.py:44-103 | two pages of ten records then an empty page give twenty records, the two page blobs, and a load |
| Pipeline.LaterPageServerErrorIsSkipped | src/main.py:85-93 | a 500 on a later page is counted as a failed page and the loop moves on; it is not an end of data |
| Pipeline.ConfiguredRunOutcome | src/main.py:49-120 | with the configured page size of 10 the page loop never stops on an exception. The exception that reaches `main` (`Escaped`) is the `AttributeError` of the missing `load_json` exactly when records were collected, and there is none otherwise |

## Left out

- HTTP sessions, headers, `__enter__`/`__exit__`, logging, the 0.5 s pause between pages, and the real clock, sleep and random source. The sleeps are not taken: `VMHub.Backoffs` derives the backoff before each retry from the trace (one per attempt that led to a retry), and `VMHub.Sleeps` turns those backoffs and the random draws into the sleep lengths; the trace itself holds only the attempts and the result.
- The Python time zone (America/Sao_Paulo) and the calendar. A clock reading is any year 1000–9999, month 1–12, day 1–31 and hour 0–23. Years outside four digits are not modelled.
- `time.sleep` raising `ValueError` for a negative sleep. A negative `initial_backoff` is not excluded, but its effect is not modelled.
- JSON decoding of a response body, and `json.dumps` and `urllib.parse.quote` themselves. They are parameters; `NdjsonLines` assumes `dumps` emits no raw newline, as `json.dumps` escapes them.
- Failures of the cloud clients. Bucket and dataset creation, the GCS upload, the BigQuery load job and Firestore are external calls. An upload is assumed to succeed.
- `Settings.load_external_config` and `load_dotenv`. They are file I/O outside the loop.
- Pipeline.ProcessEndpoint: termination is proved given a stop page (a ghost `bound`): a page that is empty or raises something other than `VMHubAPIError`, or that follows three `VMHubAPIError` pages. Every run that ends has one (`Pipeline.RunStopsAtStopPage`); only a loop that never ends is excluded.
- Pipeline.RunPipeline: requires a stop page for each endpoint, for the same reason as `ProcessEndpoint`. An exception escaping an endpoint is returned in that run (`Pipeline.Escaped`) instead of being logged.
- The BigQuery load call at src/main.py:103 raises `AttributeError` in the program, because `BigQueryHelper` has no `load_json` (and `Settings` has no `get_schema`). The model records that the call is reached (`EndpointRun.loaded`) and the exception it raises (`Pipeline.Escaped`), not a load.
- VMHub.BackoffIsGeometric: proved for exact real arithmetic. Python multiplies binary floats, whose rounding is not modelled.
- VMHub.SleepsNonDecreasing: proved for exact real arithmetic on backoff, jitter and `min`. Python's float rounding is not modelled.
- VMHub.TotalSleepBound: proved for exact real arithmetic. Float rounding of the sum is not modelled.
- Endpoints: `get_all` reflects over the class attributes. The model lists the one configured endpoint directly.

=== FILE: bigquery_helper.dfy ===
/** `BigQueryHelper` (src/utils/bigquery_helper.py): translation of the
    dictionary field descriptors of a table schema into `SchemaField`s, and
    the table id a load targets. Dataset creation and the load job itself
    are cloud calls and are not modelled. */
module BigQuery {
  import opened Outcomes
  import opened Text

  const RecordType := "RECORD"
  const DefaultMode := "NULLABLE"

  /** A schema field descriptor as read from JSON: each key may be absent.
      `hasFields` is `'fields' in field_def`; `fields` is that entry's list
      when present and empty otherwise. */
  datatype FieldDef = FieldDef(
    name: Option<string>,
    fieldType: Option<string>,
    mode: Option<string>,
    hasFields: bool,
    fields: seq<FieldDef>)

  /** `bigquery.SchemaField(name, field_type, mode, fields)`. */
  datatype SchemaField = SchemaField(name: string, fieldType: string, mode: string, subFields: seq<SchemaField>)

  /** `field_def.get('mode', 'NULLABLE')`. */
  function ModeOf(d: FieldDef): string {
    if d.mode.Some? then d.mode.value else DefaultMode
  }

  /** Whether the translation recurses into the descriptor's sub-fields. */
  predicate Nests(d: FieldDef) {
    d.fieldType == Some(RecordType) && d.hasFields
  }

  /** `_create_schema_field(field_def)`: `field_def['name']` and
      `field_def['type']` raise `KeyError` when absent (name first). */
  function CreateSchemaField(d: FieldDef): (r: Result<SchemaField>)
    ensures d.name.None? ==> r == Err(KeyError("name"))
    ensures d.name.Some? && d.fieldType.None? ==> r == Err(KeyError("type"))
    ensures r.Ok? ==>
      && d.name == Some(r.value.name)
      && d.fieldType == Some(r.value.fieldType)
      && r.value.mode == ModeOf(d)
    ensures r.Ok? && Nests(d) ==>
      && |r.value.subFields| == |d.fields|
      && forall i :: 0 <= i < |d.fields| ==> CreateSchemaField(d.fields[i]) == Ok(r.value.subFields[i])
    ensures r.Ok? && !Nests(d) ==> r.value.subFields == []
    ensures d.name.Some? && d.fieldType.Some? && Nests(d) && CreateSchemaFields(d.fields).Err? ==>
      r == Err(CreateSchemaFields(d.fields).error)
    ensures r.Err? ==> r.error == KeyError("name") || r.error == KeyError("type")
    decreases d, 1
  {
    if d.name.None? then Err(KeyError("name"))
    else if d.fieldType.None? then Err(KeyError("type"))
    else if Nests(d) then
      match CreateSchemaFields(d.fields)
      case Err(e) => Err(e)
      case Ok(subs) => Ok(SchemaField(d.name.value, d.fieldType.value, ModeOf(d), subs))
    else
      Ok(SchemaField(d.name.value, d.fieldType.value, ModeOf(d), []))
  }

  /** `[self._create_schema_field(f) for f in defs]`: the first failing
      descriptor's error, or the translations in the same order. */
  function CreateSchemaFields(defs: seq<FieldDef>): (r: Result<seq<SchemaField>>)
    ensures r.Ok? ==>
      && |r.value| == |defs|
      && forall i :: 0 <= i < |defs| ==> CreateSchemaField(defs[i]) == Ok(r.value[i])
    ensures r.Err? ==>
      exists i :: 0 <= i < |defs| && CreateSchemaField(defs[i]) == Err(r.error)
        && forall j :: 0 <= j < i ==> CreateSchemaField(defs[j]).Ok?
    ensures r.Err? ==> r.error == KeyError("name") || r.error == KeyError("type")
    decreases defs, 0
  {
    if |defs| == 0 then Ok([])
    else
      match CreateSchemaField(defs[0])
      case Err(e) => Err(e)
      case Ok(f) =>
        match CreateSchemaFields(defs[1..])
        case Err(e) =>
          ghost var i :| 0 <= i < |defs[1..]| && CreateSchemaField(defs[1..][i]) == Err(e)
            && forall j :: 0 <= j < i ==> CreateSchemaField(defs[1..][j]).Ok?;
          assert CreateSchemaField(defs[i + 1]) == Err(e);
          Err(e)
        case Ok(fs) => Ok([f] + fs)
  }

  /** Every descriptor in the tree the translation visits has a name and a type. */
  ghost predicate WellFormed(d: FieldDef)
    decreases d, 1
  {
    && d.name.Some?
    && d.fieldType.Some?
    && (Nests(d) ==> AllWellFormed(d.fields))
  }

  ghost predicate AllWellFormed(defs: seq<FieldDef>)
    decreases defs, 0
  {
    forall i :: 0 <= i < |defs| ==> WellFormed(defs[i])
  }

  /** The translation succeeds exactly on well-formed descriptors. */
  lemma {:induction false} CreateSchemaFieldSucceedsIff(d: FieldDef)
    ensures CreateSchemaField(d).Ok? <==> WellFormed(d)
    decreases d, 1
  {
    if d.name.Some? && d.fieldType.Some? && Nests(d) {
      CreateSchemaFieldsSucceedsIff(d.fields);
    }
  }

  lemma {:induction false} CreateSchemaFieldsSucceedsIff(defs: seq<FieldDef>)
    ensures CreateSchemaFields(defs).Ok? <==> AllWellFormed(defs)
    decreases defs, 0
  {
    forall i | 0 <= i < |defs|
      ensures CreateSchemaField(defs[i]).Ok? <==> WellFormed(defs[i])
    {
      CreateSchemaFieldSucceedsIff(defs[i]);
    }
    if CreateSchemaFields(defs).Err? {
      var e := CreateSchemaFields(defs).error;
      var i :| 0 <= i < |defs| && CreateSchemaField(defs[i]) == Err(e);
      assert !WellFormed(defs[i]);
    }
  }

  /** The descriptor a schema field is written back as: every key present,
      `fields` only on records. */
  function Describe(f: SchemaField): FieldDef
    decreases f, 1
  {
    FieldDef(Some(f.name), Some(f.fieldType), Some(f.mode),
             f.fieldType == RecordType, if f.fieldType == RecordType then DescribeAll(f.subFields) else [])
  }

  function DescribeAll(fs: seq<SchemaField>): seq<FieldDef>
    decreases fs, 0
  {
    seq(|fs|, i requires 0 <= i < |fs| => Describe(fs[i]))
  }

  /** Only records carry sub-fields, as `_create_schema_field` produces them. */
  ghost predicate Shaped(f: SchemaField)
    decreases f, 1
  {
    && (f.fieldType != RecordType ==> f.subFields == [])
    && forall i :: 0 <= i < |f.subFields| ==> Shaped(f.subFields[i])
  }

  /** Translating the description of a schema field gives the field back. */
  lemma {:induction false} CreateDescribeRoundTrip(f: SchemaField)
    requires Shaped(f)
    ensures CreateSchemaField(Describe(f)) == Ok(f)
    decreases f, 1
  {
    if f.fieldType == RecordType {
      CreateDescribeAllRoundTrip(f.subFields);
    }
  }

  lemma {:induction false} CreateDescribeAllRoundTrip(fs: seq<SchemaField>)
    requires forall i :: 0 <= i < |fs| ==> Shaped(fs[i])
    ensures CreateSchemaFields(DescribeAll(fs)) == Ok(fs)
    decreases fs, 0
  {
    var defs := DescribeAll(fs);
    forall i | 0 <= i < |fs|
      ensures CreateSchemaField(defs[i]) == Ok(fs[i])
    {
      CreateDescribeRoundTrip(fs[i]);
    }
    var r := CreateSchemaFields(defs);
    CreateSchemaFieldsSucceedsIff(defs);
    forall i | 0 <= i < |defs|
      ensures WellFormed(defs[i])
    {
      CreateSchemaFieldSucceedsIff(defs[i]);
    }
    assert r.Ok?;
    assert r.value == fs;
  }

  /** `f"{project_id}.{dataset_id}.{table_id}"`. */
  function FullTableId(projectId: string, datasetId: string, tableId: string): (id: string)
    ensures id == projectId + "." + datasetId + "." + tableId
  {
    var parts := [projectId, datasetId, tableId];
    assert parts[1..] == [datasetId, tableId];
    assert parts[1..][1..] == [tableId];
    assert Join(parts[1..][1..], ".") == tableId;
    assert Join(parts[1..], ".") == datasetId + "." + tableId;
    assert Join(parts, ".") == projectId + "." + (datasetId + "." + tableId);
    Join(parts, ".")
  }

  /** With dot-free ids, the three parts can be read back from the full id. */
  lemma FullTableIdParts(projectId: string, datasetId: string, tableId: string)
    requires '.' !in projectId && '.' !in datasetId && '.' !in tableId
    ensures Split(FullTableId(projectId, datasetId, tableId), '.') == [projectId, datasetId, tableId]
  {
    SplitJoinChar([projectId, datasetId, tableId], '.');
  }

  /** What `load_data_from_gcs` hands to the load job: the full table id,
      the translated schema and the source URIs. */
  datatype LoadRequest = LoadRequest(fullTableId: string, schema: seq<SchemaField>, sourceUris: seq<string>)

  function PlanLoad(projectId: string, datasetId: string, tableId: string, schema: seq<FieldDef>, sourceUris: seq<string>): (r: Result<LoadRequest>)
    ensures r.Ok? <==> CreateSchemaFields(schema).Ok?
    ensures r.Err? ==> r.error == CreateSchemaFields(schema).error
    ensures r.Ok? ==>
      && r.value.fullTableId == FullTableId(projectId, datasetId, tableId)
      && r.value.schema == CreateSchemaFields(schema).value
      && |r.value.schema| == |schema|
      && r.value.sourceUris == sourceUris
  {
    match CreateSchemaFields(schema)
    case Err(e) => Err(e)
    case Ok(fields) => Ok(LoadRequest(FullTableId(projectId, datasetId, tableId), fields, sourceUris))
  }
}

=== FILE: endpoints.dfy ===
/** The endpoint table (src/config/endpoints.py): static configuration. */
module Endpoints {
  import opened Outcomes

  datatype Endpoint = Endpoint(
    name: string,
    path: string,
    pageSize: int,
    maxRetries: int,
    schemaFile: Option<string>)

  /** `VMHubEndpoints.CLIENTES`, the one configured endpoint. */
  const Clientes := Endpoint("clientes", "clientes", 10, 3, Some("clientes.json"))

  /** `VMHubEndpoints.get_all()`. */
  const All: seq<Endpoint> := [Clientes]
}

=== FILE: gcs_helper.dfy ===
/** `GCSHelper.upload_json` (src/utils/gcs_helper.py): the newline-delimited
    JSON text that is uploaded and the `gs://` URI that is returned. The
    bucket client and the upload itself are not modelled; `json.dumps` is a
    parameter. */
module Storage {
  import opened Outcomes
  import opened Text
  import opened Json

  const Newline: char := '\n'
  const Scheme := "gs://"

  /** One `json.dumps(record, ensure_ascii=False)` per record, in order. */
  function Serialise(records: seq<Value>, dumps: Value -> string): seq<string> {
    seq(|records|, i requires 0 <= i < |records| => dumps(records[i]))
  }

  /** The text `upload_json` writes: for a list, the serialised records
      joined by newlines; for anything else, its one serialisation. */
  function NdjsonPayload(data: Value, dumps: Value -> string): string {
    if data.Arr? then Join(Serialise(data.items, dumps), [Newline]) else dumps(data)
  }

  /** The URI `upload_json` returns. */
  function GsUri(bucketName: string, blobName: string): string {
    Scheme + bucketName + "/" + blobName
  }

  /** A blob written by `upload_json`: its name, contents and URI. */
  datatype Blob = Blob(name: string, contents: string, uri: string)

  /** `upload_json(data, blob_name)` on the bucket `bucketName`. */
  function UploadJson(bucketName: string, data: Value, blobName: string, dumps: Value -> string): (b: Blob)
    ensures b.name == blobName
    ensures b.contents == NdjsonPayload(data, dumps)
    ensures b.uri == GsUri(bucketName, blobName)
    ensures StartsWith(b.uri, Scheme) && EndsWith(b.uri, "/" + blobName)
  {
    var uri := GsUri(bucketName, blobName);
    assert uri == Scheme + (bucketName + "/" + blobName);
    assert uri[|uri| - |"/" + blobName|..] == "/" + blobName;
    Blob(blobName, NdjsonPayload(data, dumps), uri)
  }

  /** An empty list uploads the empty text; a single mapping or a
      one-element list uploads exactly one serialisation. */
  lemma NdjsonSmallCases(data: Value, dumps: Value -> string)
    ensures data == Arr([]) ==> NdjsonPayload(data, dumps) == ""
    ensures data.Arr? && |data.items| == 1 ==> NdjsonPayload(data, dumps) == dumps(data.items[0])
    ensures !data.Arr? ==> NdjsonPayload(data, dumps) == dumps(data)
  {
  }

  /** When no serialisation contains a raw newline (json.dumps escapes
      them), splitting the payload of a non-empty list at newlines gives
      back one serialisation per record, in order; so there are exactly
      n - 1 newlines. */
  lemma NdjsonLines(records: seq<Value>, dumps: Value -> string)
    requires |records| >= 1
    requires forall i :: 0 <= i < |records| ==> Newline !in dumps(records[i])
    ensures Split(NdjsonPayload(Arr(records), dumps), Newline) == Serialise(records, dumps)
    ensures multiset(NdjsonPayload(Arr(records), dumps))[Newline] == |records| - 1
  {
    var lines := Serialise(records, dumps);
    SplitJoinChar(lines, Newline);
    JoinSeparatorCount(lines, Newline);
  }

  /** Reads a `gs://bucket/blob` URI back into its bucket and blob names. */
  function ParseGsUri(uri: string): Option<(string, string)> {
    if !StartsWith(uri, Scheme) then None
    else
      var rest := uri[|Scheme|..];
      var i := IndexOf(rest, '/');
      if i == |rest| then None else Some((rest[..i], rest[i + 1..]))
  }

  /** A bucket name has no '/', so the bucket and blob name can be read back
      from the URI. */
  lemma ParseGsUriRoundTrip(bucketName: string, blobName: string)
    requires '/' !in bucketName
    ensures ParseGsUri(GsUri(bucketName, blobName)) == Some((bucketName, blobName))
  {
    var uri := GsUri(bucketName, blobName);
    var rest := bucketName + "/" + blobName;
    assert uri == Scheme + rest;
    assert uri[|Scheme|..] == rest;
    var i := IndexOf(rest, '/');
    assert rest[|bucketName|] == '/';
    assert i == |bucketName|;
    assert rest[..i] == bucketName;
    assert rest[i + 1..] == blobName;
  }
}

=== FILE: json.dfy ===
/** The JSON values the API returns and the uploader serialises. Response
    records are schema-less mappings, so their fields are kept as an ordered
    list of key/value pairs. */
module Json {

  datatype Value =
    | Null
    | Bool(b: bool)
    | Num(n: real)
    | Str(s: string)
    | Arr(items: seq<Value>)
    | Obj(fields: seq<(string, Value)>)
}

=== FILE: main.dfy ===
/** The pipeline driver (src/main.py): CNPJ normalisation, the blob path of
    a fetched page, the per-endpoint page loop with its failure budget, and
    the top-level run that isolates one endpoint's failure from the next.

    The clock, the VMHub server, `json.dumps` and `urllib.parse.quote` are
    parameters; the uploads are returned as values instead of being sent. */
module Pipeline {
  import opened Outcomes
  import opened Text
  import opened Json
  import opened Config
  import opened VMHub
  import opened Storage
  import BigQuery
  import Endpoints

  // ---------------------------------------------------------------------
  // format_cnpj

  /** The punctuation of a printed CNPJ ("12.345.678/0001-90"). */
  predicate IsCnpjPunctuation(ch: char) {
    ch == '.' || ch == '/' || ch == '-'
  }

  predicate KeepCnpjChar(ch: char) {
    !IsCnpjPunctuation(ch)
  }

  /** `format_cnpj`: three successive `str.replace(c, '')` calls. */
  function FormatCnpj(cnpj: string): (r: string)
    ensures r == Filter(cnpj, KeepCnpjChar)
    ensures forall ch :: ch in r <==> ch in cnpj && !IsCnpjPunctuation(ch)
    ensures IsSubsequence(r, cnpj)
  {
    FormatCnpjIsFilter(cnpj);
    RemoveAll(RemoveAll(RemoveAll(cnpj, '.'), '/'), '-')
  }

  lemma {:induction false} RemoveAllAppend(a: string, b: string, c: char)
    ensures RemoveAll(a + b, c) == RemoveAll(a, c) + RemoveAll(b, c)
    decreases |a|
  {
    if |a| > 0 {
      assert (a + b)[0] == a[0] && (a + b)[1..] == a[1..] + b;
      RemoveAllAppend(a[1..], b, c);
    } else {
      assert a + b == b;
    }
  }

  /** The three removals together keep exactly the non-punctuation
      characters, in order. */
  lemma {:induction false} FormatCnpjIsFilter(cnpj: string)
    ensures RemoveAll(RemoveAll(RemoveAll(cnpj, '.'), '/'), '-') == Filter(cnpj, KeepCnpjChar)
    decreases |cnpj|
  {
    if |cnpj| > 0 {
      var x, t := cnpj[0], cnpj[1..];
      var h := if KeepCnpjChar(x) then [x] else [];
      var r1 := RemoveAll(t, '.');
      var r2 := RemoveAll(r1, '/');
      FormatCnpjIsFilter(t);
      assert RemoveAll(cnpj, '.') == (if x == '.' then "" else [x]) + r1;
      RemoveAllAppend(if x == '.' then "" else [x], r1, '/');
      RemoveAllAppend(RemoveAll(if x == '.' then "" else [x], '/'), r2, '-');
      assert RemoveAll(RemoveAll(RemoveAll([x], '.'), '/'), '-') == h;
    }
  }

  lemma {:induction false} FilterIdempotent(s: string)
    ensures Filter(Filter(s, KeepCnpjChar), KeepCnpjChar) == Filter(s, KeepCnpjChar)
    decreases |s|
  {
    if |s| > 0 {
      FilterIdempotent(s[1..]);
      var rest := Filter(s[1..], KeepCnpjChar);
      if KeepCnpjChar(s[0]) {
        assert ([s[0]] + rest)[1..] == rest;
      }
    }
  }

  /** Formatting an already formatted CNPJ changes nothing. */
  lemma FormatCnpjIdempotent(cnpj: string)
    ensures FormatCnpj(FormatCnpj(cnpj)) == FormatCnpj(cnpj)
  {
    FormatCnpjIsFilter(cnpj);
    FormatCnpjIsFilter(FormatCnpj(cnpj));
    FilterIdempotent(cnpj);
  }

  /** A CNPJ with no punctuation is left as it is. */
  lemma {:induction false} FormatCnpjKeepsUnpunctuated(cnpj: string)
    requires forall i :: 0 <= i < |cnpj| ==> !IsCnpjPunctuation(cnpj[i])
    ensures FormatCnpj(cnpj) == cnpj
    decreases |cnpj|
  {
    FormatCnpjIsFilter(cnpj);
    if |cnpj| > 0 {
      FormatCnpjKeepsUnpunctuated(cnpj[1..]);
      FormatCnpjIsFilter(cnpj[1..]);
      assert cnpj == [cnpj[0]] + cnpj[1..];
    }
  }

  /** `f"CNPJ_{formatted_cnpj}_RAW"`, the BigQuery dataset of a run. */
  function DatasetId(formattedCnpj: string): string {
    "CNPJ_" + formattedCnpj + "_RAW"
  }

  /** The dataset id built from a formatted CNPJ is dot-free, so a full table
      id built on it splits back into project, dataset and table. */
  lemma DatasetTableIdParts(projectId: string, cnpj: string, tableId: string)
    requires '.' !in projectId && '.' !in tableId
    ensures Split(BigQuery.FullTableId(projectId, DatasetId(FormatCnpj(cnpj)), tableId), '.')
         == [projectId, DatasetId(FormatCnpj(cnpj)), tableId]
  {
    var d := DatasetId(FormatCnpj(cnpj));
    assert d == "CNPJ_" + (FormatCnpj(cnpj) + "_RAW");
    assert '.' !in d;
    BigQuery.FullTableIdParts(projectId, d, tableId);
  }

  // ---------------------------------------------------------------------
  // get_storage_path

  /** A wall-clock reading in America/Sao_Paulo, to the hour. */
  datatype DateTime = DateTime(year: int, month: int, day: int, hour: int)

  /** The range `datetime` allows, with four-digit years. */
  predicate ValidDateTime(t: DateTime) {
    && 1000 <= t.year <= 9999
    && 1 <= t.month <= 12
    && 1 <= t.day <= 31
    && 0 <= t.hour <= 23
  }

  type Timestamp = t: DateTime | ValidDateTime(t) witness DateTime(2000, 1, 1, 0)

  const PathPrefix := "CNPJ_"
  const PagePrefix := "response_pg"
  const PageSuffix := ".json"

  /** `now.strftime('%Y/%m/%d/%H')`. */
  function FormatDate(now: Timestamp): string {
    ZeroPad(now.year, 4) + "/" + ZeroPad(now.month, 2) + "/" + ZeroPad(now.day, 2) + "/" + ZeroPad(now.hour, 2)
  }

  /** The file name of a page's blob, `f"response_pg{page}.json"`. */
  function PageFileName(page: int): string {
    PagePrefix + IntToString(page) + PageSuffix
  }

  /** `get_storage_path(cnpj, endpoint, page)` with the clock reading `now`. */
  function StoragePath(cnpj: string, endpoint: string, now: Timestamp, page: int): string {
    PathPrefix + cnpj + "/" + endpoint + "/" + FormatDate(now) + "/" + PageFileName(page)
  }

  /** The seven '/'-separated segments of a storage path. */
  function PathSegments(cnpj: string, endpoint: string, now: Timestamp, page: int): seq<string> {
    [PathPrefix + cnpj, endpoint, ZeroPad(now.year, 4), ZeroPad(now.month, 2),
     ZeroPad(now.day, 2), ZeroPad(now.hour, 2), PageFileName(page)]
  }

  lemma JoinCons(parts: seq<string>, sep: string)
    requires |parts| >= 2
    ensures Join(parts, sep) == parts[0] + sep + Join(parts[1..], sep)
  {
  }

  /** Joining seven pieces, written out. */
  lemma JoinSeven(a: string, b: string, c: string, d: string, e: string, f: string, g: string)
    ensures Join([a, b, c, d, e, f, g], "/") == a + "/" + b + "/" + (c + "/" + d + "/" + e + "/" + f) + "/" + g
  {
    var s := [a, b, c, d, e, f, g];
    assert s[6..] == [g];
    assert s[5..][1..] == s[6..] && s[4..][1..] == s[5..] && s[3..][1..] == s[4..];
    assert s[2..][1..] == s[3..] && s[1..][1..] == s[2..];
    assert s[5..] == [f, g] && [f, g][1..] == [g];
    assert Join([g], "/") == g;
    JoinCons([f, g], "/");
    var j5 := Join(s[5..], "/");
    assert j5 == f + "/" + g;
    var j4 := Join(s[4..], "/");
    assert j4 == e + "/" + j5;
    var j3 := Join(s[3..], "/");
    assert j3 == d + "/" + j4;
    var j2 := Join(s[2..], "/");
    assert j2 == c + "/" + j3;
    var j1 := Join(s[1..], "/");
    assert j1 == b + "/" + j2;
    assert Join(s, "/") == a + "/" + j1;
  }

  lemma StoragePathIsJoin(cnpj: string, endpoint: string, now: Timestamp, page: int)
    ensures StoragePath(cnpj, endpoint, now, page) == Join(PathSegments(cnpj, endpoint, now, page), "/")
  {
    var s := PathSegments(cnpj, endpoint, now, page);
    JoinSeven(s[0], s[1], s[2], s[3], s[4], s[5], s[6]);
    assert s == [s[0], s[1], s[2], s[3], s[4], s[5], s[6]];
  }

  /** What a storage path identifies. */
  datatype PathKey = PathKey(cnpj: string, endpoint: string, now: Timestamp, page: nat)

  /** Reads a storage path back; `None` for a string of another shape. */
  function ParseStoragePath(path: string): Option<PathKey> {
    var segs := Split(path, '/');
    if |segs| != 7 then None
    else if !StartsWith(segs[0], PathPrefix) then None
    else if !(AllDigits(segs[2]) && AllDigits(segs[3]) && AllDigits(segs[4]) && AllDigits(segs[5])) then None
    else
      var last := segs[6];
      if !(|last| > |PagePrefix| + |PageSuffix| && StartsWith(last, PagePrefix) && EndsWith(last, PageSuffix)) then None
      else
        var digits := last[|PagePrefix|..|last| - |PageSuffix|];
        if !AllDigits(digits) then None
        else
          var t := DateTime(ParseNat(segs[2]), ParseNat(segs[3]), ParseNat(segs[4]), ParseNat(segs[5]));
          if !ValidDateTime(t) then None
          else Some(PathKey(segs[0][|PathPrefix|..], segs[1], t, ParseNat(digits)))
  }

  lemma NoSlashInDigits(s: string)
    requires AllDigits(s)
    ensures '/' !in s
  {
    forall i | 0 <= i < |s|
      ensures s[i] != '/'
    {
      assert IsDigit(s[i]);
    }
  }

  /** For a '/'-free CNPJ and endpoint name and a non-negative page, the
      path determines the CNPJ, endpoint, hour and page it was built from. */
  lemma StoragePathRoundTrip(cnpj: string, endpoint: string, now: Timestamp, page: nat)
    requires '/' !in cnpj && '/' !in endpoint
    ensures ParseStoragePath(StoragePath(cnpj, endpoint, now, page)) == Some(PathKey(cnpj, endpoint, now, page))
  {
    var segs := PathSegments(cnpj, endpoint, now, page);
    var digits := NatToString(page);
    StoragePathIsJoin(cnpj, endpoint, now, page);
    NoSlashInDigits(segs[2]);
    NoSlashInDigits(segs[3]);
    NoSlashInDigits(segs[4]);
    NoSlashInDigits(segs[5]);
    NoSlashInDigits(digits);
    assert segs[0] == PathPrefix + cnpj;
    assert '/' !in segs[0];
    var last := segs[6];
    assert last == PagePrefix + digits + PageSuffix;
    assert '/' !in last;
    SplitJoinChar(segs, '/');
    assert Split(StoragePath(cnpj, endpoint, now, page), '/') == segs;
    assert segs[0][..|PathPrefix|] == PathPrefix;
    assert segs[0][|PathPrefix|..] == cnpj;
    assert last[..|PagePrefix|] == PagePrefix;
    assert last[|last| - |PageSuffix|..] == PageSuffix;
    assert last[|PagePrefix|..|last| - |PageSuffix|] == digits;
    ParseZeroPad(now.year, 4);
    ParseZeroPad(now.month, 2);
    ParseZeroPad(now.day, 2);
    ParseZeroPad(now.hour, 2);
    ParseNatToString(page);
  }

  /** Distinct pages of a run within the same hour are written to distinct
      blobs (and so do not overwrite each other). */
  lemma StoragePathInjective(cnpj: string, endpoint: string, now: Timestamp, page1: nat, page2: nat)
    requires '/' !in cnpj && '/' !in endpoint
    requires StoragePath(cnpj, endpoint, now, page1) == StoragePath(cnpj, endpoint, now, page2)
    ensures page1 == page2
  {
    StoragePathRoundTrip(cnpj, endpoint, now, page1);
    StoragePathRoundTrip(cnpj, endpoint, now, page2);
  }

  // ---------------------------------------------------------------------
  // process_endpoint

  /** `max_consecutive_failures`. */
  const MaxConsecutiveFailures: nat := 3

  /** The outcome of `vmhub_client.get_data(...)` for each page number. */
  type PageSource = int -> Result<seq<Value>>

  /** A page the loop stores: `get_data` returned a non-empty list. */
  predicate HasData(r: Result<seq<Value>>) {
    r.Ok? && |r.value| > 0
  }

  /** A page the loop skips: `get_data` raised a `VMHubAPIError`. */
  predicate IsApiFailure(r: Result<seq<Value>>) {
    r.Err? && r.error.VMHubAPIError?
  }

  /** Where a blob is uploaded and how its name and contents are made:
      the bucket, the formatted CNPJ, the endpoint name, the clock reading
      taken for each page and `json.dumps`. */
  datatype Staging = Staging(
    bucketName: string,
    formattedCnpj: string,
    endpointName: string,
    clock: int -> Timestamp,
    dumps: Value -> string)

  /** The blob `upload_json` writes for one page of records. */
  function Stage(st: Staging, page: int, records: seq<Value>): Blob {
    UploadJson(st.bucketName, Arr(records), StoragePath(st.formattedCnpj, st.endpointName, st.clock(page), page), st.dumps)
  }

  /** `Stage` for a fixed staging, as a function of the page and its records. */
  function Uploader(st: Staging): (int, seq<Value>) -> Blob {
    (page, records) => Stage(st, page, records)
  }

  /** How the loop ended. */
  datatype Stop =
    | EmptyPage          // `if not data: break`
    | TooManyFailures    // the `while` condition became false
    | Raised(error: Error)  // an exception other than `VMHubAPIError` left the loop

  /** What one `process_endpoint` call did: the page it stopped at, the
      failure counter, the records collected, the blobs uploaded, and
      whether the BigQuery load was reached. */
  datatype EndpointRun = EndpointRun(
    stop: Stop,
    page: nat,
    failures: nat,
    allData: seq<Value>,
    blobs: seq<Blob>,
    loaded: bool)

  /** The records of pages `0 .. n - 1`, in page order. */
  ghost function Collected(fetch: PageSource, n: nat): seq<Value> {
    if n == 0 then []
    else Collected(fetch, n - 1) + (if HasData(fetch(n - 1)) then fetch(n - 1).value else [])
  }

  /** The blobs uploaded for pages `0 .. n - 1`, in page order. */
  ghost function StoredBlobs(fetch: PageSource, upload: (int, seq<Value>) -> Blob, n: nat): seq<Blob> {
    if n == 0 then []
    else StoredBlobs(fetch, upload, n - 1) + (if HasData(fetch(n - 1)) then [upload(n - 1, fetch(n - 1).value)] else [])
  }

  /** How many of the pages just before `n` failed in a row. */
  ghost function TrailingFailures(fetch: PageSource, n: nat): nat {
    if n == 0 || !IsApiFailure(fetch(n - 1)) then 0 else 1 + TrailingFailures(fetch, n - 1)
  }

  /** Why the loop stopped at `run.page`. */
  ghost predicate StoppedAt(fetch: PageSource, run: EndpointRun) {
    match run.stop
    case EmptyPage => fetch(run.page) == Ok([]) && run.failures < MaxConsecutiveFailures
    case Raised(e) => fetch(run.page) == Err(e) && !e.VMHubAPIError? && run.failures < MaxConsecutiveFailures
    case TooManyFailures => run.failures == MaxConsecutiveFailures
  }

  /** The loop's state before it fetches `page`: every earlier page was
      stored or skipped, the failure budget was never used up, the counter
      holds the failures in a row just before `page`, and the records and
      blobs are those of the stored pages, in page order. */
  ghost predicate Reached(
    fetch: PageSource, st: Staging, page: nat, failures: nat, allData: seq<Value>, blobs: seq<Blob>)
  {
    && failures == TrailingFailures(fetch, page)
    && failures <= MaxConsecutiveFailures
    && (forall p :: 0 <= p < page ==> HasData(fetch(p)) || IsApiFailure(fetch(p)))
    && (forall p :: 0 <= p < page ==> TrailingFailures(fetch, p) < MaxConsecutiveFailures)
    && allData == Collected(fetch, page)
    && blobs == StoredBlobs(fetch, Uploader(st), page)
  }

  /** The full account of a `process_endpoint` call over the pages `fetch`
      returns: where it stopped and why, what it collected and uploaded on
      the way, and that the load happens exactly when no exception escaped
      and some records were collected. */
  ghost predicate IsRunOf(fetch: PageSource, st: Staging, run: EndpointRun) {
    && StoppedAt(fetch, run)
    && Reached(fetch, st, run.page, run.failures, run.allData, run.blobs)
    && (run.loaded <==> !run.stop.Raised? && |run.allData| > 0)
  }

  /** Storing page `page` extends the records and blobs by that page and
      clears the failure counter. */
  lemma StepStored(
    fetch: PageSource, st: Staging, page: nat, failures: nat, allData: seq<Value>, blobs: seq<Blob>)
    requires Reached(fetch, st, page, failures, allData, blobs)
    requires failures < MaxConsecutiveFailures
    requires HasData(fetch(page))
    ensures Reached(fetch, st, page + 1, 0, allData + fetch(page).value, blobs + [Stage(st, page, fetch(page).value)])
  {
    assert Collected(fetch, page + 1) == Collected(fetch, page) + fetch(page).value;
    assert StoredBlobs(fetch, Uploader(st), page + 1) == StoredBlobs(fetch, Uploader(st), page) + [Stage(st, page, fetch(page).value)];
  }

  /** Skipping a failed page keeps the records and blobs and counts one
      more failure in a row. */
  lemma StepFailed(
    fetch: PageSource, st: Staging, page: nat, failures: nat, allData: seq<Value>, blobs: seq<Blob>)
    requires Reached(fetch, st, page, failures, allData, blobs)
    requires failures < MaxConsecutiveFailures
    requires IsApiFailure(fetch(page))
    ensures Reached(fetch, st, page + 1, failures + 1, allData, blobs)
  {
    assert Collected(fetch, page) + [] == Collected(fetch, page);
    assert StoredBlobs(fetch, Uploader(st), page) + [] == StoredBlobs(fetch, Uploader(st), page);
  }

  /** A page the loop does not get past: it comes back empty or raises
      something other than `VMHubAPIError`, or the three pages before it
      all raised `VMHubAPIError`. The loop ends exactly when the pages
      have such a page. */
  ghost predicate StopPage(fetch: PageSource, n: nat) {
    || (!HasData(fetch(n)) && !IsApiFailure(fetch(n)))
    || TrailingFailures(fetch, n) >= MaxConsecutiveFailures
  }

  /** No page at or beyond `horizon` has records: the data set is finite. */
  ghost predicate FiniteSource(fetch: PageSource, horizon: nat) {
    forall p :: p >= horizon ==> !HasData(fetch(p))
  }

  /** A finite data set has a stop page at most three pages past its end. */
  lemma FiniteSourceStops(fetch: PageSource, horizon: nat) returns (n: nat)
    requires FiniteSource(fetch, horizon)
    ensures horizon <= n <= horizon + MaxConsecutiveFailures
    ensures StopPage(fetch, n)
  {
    if StopPage(fetch, horizon) {
      return horizon;
    } else if StopPage(fetch, horizon + 1) {
      return horizon + 1;
    } else if StopPage(fetch, horizon + 2) {
      return horizon + 2;
    }
    assert IsApiFailure(fetch(horizon)) && IsApiFailure(fetch(horizon + 1)) && IsApiFailure(fetch(horizon + 2));
    assert TrailingFailures(fetch, horizon + 3) >= 3;
    return horizon + 3;
  }

  /** `process_endpoint`: fetches pages 0, 1, 2, ... until a page comes
      back empty, three pages in a row raise `VMHubAPIError`, or another
      exception escapes; uploads every non-empty page; and decides whether
      to load the collected records. `bound` is a stop page; it only
      bounds the proof of termination. */
  method ProcessEndpoint(fetch: PageSource, st: Staging, ghost bound: nat) returns (run: EndpointRun)
    requires StopPage(fetch, bound)
    ensures StoppedAt(fetch, run)
    ensures Reached(fetch, st, run.page, run.failures, run.allData, run.blobs)
    ensures run.loaded <==> !run.stop.Raised? && |run.allData| > 0
  {
    var page: nat := 0;
    var allData: seq<Value> := [];
    var blobs: seq<Blob> := [];
    var failures: nat := 0;
    var stop := TooManyFailures;
    while failures < MaxConsecutiveFailures
      invariant Reached(fetch, st, page, failures, allData, blobs)
      invariant page <= bound
      decreases bound - page
    {
      var r := fetch(page);
      if r.Err? {
        if !r.error.VMHubAPIError? {
          stop := Raised(r.error);
          break;
        }
        StepFailed(fetch, st, page, failures, allData, blobs);
        failures := failures + 1;
        page := page + 1;
      } else {
        if |r.value| == 0 {
          stop := EmptyPage;
          break;
        }
        StepStored(fetch, st, page, failures, allData, blobs);
        blobs := blobs + [Stage(st, page, r.value)];
        allData := allData + r.value;
        failures := 0;
        page := page + 1;
      }
    }
    run := EndpointRun(stop, page, failures, allData, blobs, !stop.Raised? && |allData| > 0);
  }

  // ---------------------------------------------------------------------
  // main

  /** The client `main` builds: three retries, a two-second first backoff,
      the other settings at their defaults. */
  function MainClient(s: Settings): (c: Client)
    ensures c.maxRetries == 3 && c.initialBackoff == 2.0
    ensures c.maxBackoff == 32.0 && c.backoffFactor == 2.0
    ensures c.apiKey == s.apiKey && c.baseUrl == RStrip(s.baseUrl, '/')
  {
    NewClient(s.baseUrl, s.apiKey, 3, 2.0, DefaultMaxBackoff, DefaultBackoffFactor)
  }

  /** With `main`'s client one page request sleeps at most three times 32
      seconds in all, whatever the server and the random draws. */
  lemma MainClientSleepBound(s: Settings, req: Request, server: Server, rng: Rng)
    ensures var c := MainClient(s);
      Sum(Sleeps(c, req, rng, Backoffs(c, Attempts(c, req, server, 0)))) <= 96.0
  {
    TotalSleepBound(MainClient(s), req, server, rng);
  }

  /** The pages of one endpoint as `process_endpoint` sees them: `get_data`
      on the endpoint's path, the raw (unformatted) CNPJ and its page size. */
  function SourceFor(s: Settings, ep: Endpoints.Endpoint, quote: string -> string, server: Server): PageSource {
    p => GetData(MainClient(s), ep.path, s.cnpj, p, ep.pageSize, quote, server).result
  }

  /** The clock readings taken while the `i`-th endpoint uploads, page by
      page. */
  function EndpointClock(clock: (nat, int) -> Timestamp, i: nat): int -> Timestamp {
    p => clock(i, p)
  }

  /** Blobs go to the configured bucket, under the formatted CNPJ and the
      endpoint's name. */
  function StagingFor(s: Settings, ep: Endpoints.Endpoint, clock: int -> Timestamp, dumps: Value -> string): Staging {
    Staging(s.bucketName, FormatCnpj(s.cnpj), ep.name, clock, dumps)
  }

  /** The server has no records for any page at or beyond `horizon`. */
  ghost predicate FiniteServer(server: Server, horizon: nat) {
    forall req: Request, k: nat {:trigger server(req, k)} ::
      req.params.Some? && req.params.value.pagina >= horizon ==>
        !(server(req, k).Answered? && server(req, k).body.Arr? && |server(req, k).body.items| > 0)
  }

  /** A server with finitely many pages yields a finite page source. */
  lemma FiniteServerSource(s: Settings, ep: Endpoints.Endpoint, quote: string -> string, server: Server, horizon: nat)
    requires FiniteServer(server, horizon)
    ensures FiniteSource(SourceFor(s, ep, quote, server), horizon)
  {
    forall p | p >= horizon
      ensures !HasData(SourceFor(s, ep, quote, server)(p))
    {
      var f := GetData(MainClient(s), ep.path, s.cnpj, p, ep.pageSize, quote, server);
      if f.result.Ok? {
        var req := PageRequest(MainClient(s), ep.path, s.cnpj, p, ep.pageSize, quote);
        assert server(req, f.attempts - 1) == Answered(Arr(f.result.value));
      }
    }
  }

  /** `main()`: settings validation failure is raised; after that each
      endpoint is processed in turn, and an exception escaping one endpoint
      (see `Escaped`) is logged and does not stop the next. `clock(i, p)`
      is the reading `datetime.now` gives when the `i`-th endpoint uploads
      page `p`; `bounds[i]` is a stop page of the `i`-th endpoint. */
  method RunPipeline(
    env: Environment, endpoints: seq<Endpoints.Endpoint>,
    quote: string -> string, server: Server,
    clock: (nat, int) -> Timestamp, dumps: Value -> string, ghost bounds: seq<nat>)
    returns (r: Result<seq<EndpointRun>>)
    requires |bounds| == |endpoints|
    requires forall i :: 0 <= i < |endpoints| ==>
      LoadSettings(env).Ok? ==> StopPage(SourceFor(LoadSettings(env).value, endpoints[i], quote, server), bounds[i])
    ensures r.Err? <==> LoadSettings(env).Err?
    ensures r.Err? ==> r.error == LoadSettings(env).error
    ensures r.Ok? ==> |r.value| == |endpoints|
    ensures r.Ok? ==> forall i :: 0 <= i < |endpoints| ==>
      IsRunOf(SourceFor(LoadSettings(env).value, endpoints[i], quote, server),
              StagingFor(LoadSettings(env).value, endpoints[i], EndpointClock(clock, i), dumps),
              r.value[i])
  {
    var loaded := LoadSettings(env);
    if loaded.Err? {
      return Err(loaded.error);
    }
    var s := loaded.value;
    var runs: seq<EndpointRun> := [];
    for i := 0 to |endpoints|
      invariant |runs| == i
      invariant forall j :: 0 <= j < i ==>
        IsRunOf(SourceFor(s, endpoints[j], quote, server), StagingFor(s, endpoints[j], EndpointClock(clock, j), dumps), runs[j])
    {
      var fetch := SourceFor(s, endpoints[i], quote, server);
      var run := ProcessEndpoint(fetch, StagingFor(s, endpoints[i], EndpointClock(clock, i), dumps), bounds[i]);
      ghost var before := runs;
      runs := runs + [run];
      forall j | 0 <= j < i + 1
        ensures IsRunOf(SourceFor(s, endpoints[j], quote, server), StagingFor(s, endpoints[j], EndpointClock(clock, j), dumps), runs[j])
      {
        if j < i {
          assert runs[j] == before[j];
        }
      }
    }
    return Ok(runs);
  }

  /** Conversely, the page a finished run stopped at is a stop page, so the
      requirement of `ProcessEndpoint` holds of every run that ends. */
  lemma RunStopsAtStopPage(fetch: PageSource, st: Staging, run: EndpointRun)
    requires IsRunOf(fetch, st, run)
    ensures StopPage(fetch, run.page)
  {
  }

  /** Where the loop stops is determined by the pages: if pages
      `0 .. n - 1` all have records and page `n` is empty, the run stops
      at `n` on the empty page, having uploaded exactly one blob per page,
      in order, and it loads exactly when `n > 0`. */
  lemma {:induction false} RunOfDataThenEmpty(fetch: PageSource, st: Staging, run: EndpointRun, n: nat)
    requires IsRunOf(fetch, st, run)
    requires forall p :: 0 <= p < n ==> HasData(fetch(p))
    requires fetch(n) == Ok([])
    ensures run.stop == EmptyPage && run.page == n
    ensures |run.blobs| == n
    ensures forall p :: 0 <= p < n ==> run.blobs[p] == Stage(st, p, fetch(p).value)
    ensures run.loaded <==> n > 0
  {
    assert run.page < n ==> HasData(fetch(run.page)) && TrailingFailures(fetch, run.page) == 0;
    StoredBlobsAllData(fetch, Uploader(st), n);
    CollectedAllData(fetch, n);
  }

  lemma {:induction false} StoredBlobsAllData(fetch: PageSource, upload: (int, seq<Value>) -> Blob, n: nat)
    requires forall p :: 0 <= p < n ==> HasData(fetch(p))
    ensures |StoredBlobs(fetch, upload, n)| == n
    ensures forall p :: 0 <= p < n ==> fetch(p).Ok? && StoredBlobs(fetch, upload, n)[p] == upload(p, fetch(p).value)
  {
    if n > 0 {
      StoredBlobsAllData(fetch, upload, n - 1);
    }
  }

  lemma {:induction false} CollectedAllData(fetch: PageSource, n: nat)
    requires forall p :: 0 <= p < n ==> HasData(fetch(p))
    ensures n > 0 ==> |Collected(fetch, n)| > 0
  {
    if n > 1 {
      CollectedAllData(fetch, n - 1);
    }
  }

  /** The "clientes" run of two full pages of ten records followed by an
      empty page: twenty records collected, two blobs uploaded at the
      paths of pages 0 and 1, and the load reached. */
  lemma TwoFullPagesThenEmpty(fetch: PageSource, st: Staging, run: EndpointRun)
    requires IsRunOf(fetch, st, run)
    requires fetch(0).Ok? && |fetch(0).value| == 10
    requires fetch(1).Ok? && |fetch(1).value| == 10
    requires fetch(2) == Ok([])
    ensures run.stop == EmptyPage && run.page == 2
    ensures |run.allData| == 20 && run.allData == fetch(0).value + fetch(1).value
    ensures |run.blobs| == 2
    ensures run.blobs[0].name == StoragePath(st.formattedCnpj, st.endpointName, st.clock(0), 0)
    ensures run.blobs[1].name == StoragePath(st.formattedCnpj, st.endpointName, st.clock(1), 1)
    ensures run.loaded
  {
    forall p | 0 <= p < 2
      ensures HasData(fetch(p))
    {
      assert p == 0 || p == 1;
    }
    RunOfDataThenEmpty(fetch, st, run, 2);
    assert run.allData == Collected(fetch, 2);
    assert Collected(fetch, 1) == fetch(0).value;
    assert run.blobs[0] == Stage(st, 0, fetch(0).value);
    assert run.blobs[1] == Stage(st, 1, fetch(1).value);
  }

  /** A 500 on the first attempt for a page after the first raises
      `VMHubAPIError` at once, so the loop counts the page as a failure and
      moves on to the next page rather than ending the stream. */
  lemma LaterPageServerErrorIsSkipped(
    s: Settings, ep: Endpoints.Endpoint, quote: string -> string, server: Server, p: int)
    requires p > 0 && ep.pageSize <= MaxPageSize
    requires server(PageRequest(MainClient(s), ep.path, s.cnpj, p, ep.pageSize, quote), 0) == HttpError(InternalServerError)
    ensures SourceFor(s, ep, quote, server)(p) == Err(VMHubAPIError(ServerErrorOnLaterPage))
    ensures IsApiFailure(SourceFor(s, ep, quote, server)(p))
  {
    var c := MainClient(s);
    var req := PageRequest(c, ep.path, s.cnpj, p, ep.pageSize, quote);
    LaterPageServerErrorRaises(c, req, server, 0);
  }

  /** The exception `process_endpoint` lets escape to `main`: the one that
      ended the page loop, or else, once records were collected, the
      `AttributeError` of the load call, as `BigQueryHelper` defines no
      `load_json`. */
  function Escaped(run: EndpointRun): (e: Option<Error>)
    ensures e.None? <==> !run.stop.Raised? && !run.loaded
    ensures run.stop.Raised? ==> e == Some(run.stop.error)
  {
    if run.stop.Raised? then Some(run.stop.error)
    else if run.loaded then Some(AttributeError("load_json"))
    else None
  }

  /** The configured endpoints ask for at most ten records a page, so
      `get_data` never raises its `ValueError` for them: every page either
      arrives or fails with `VMHubAPIError` and the page loop never stops
      on an exception. The load is reached exactly when some records were
      collected, and then it raises `AttributeError`; otherwise the run
      ends without an exception. */
  lemma ConfiguredRunOutcome(
    s: Settings, ep: Endpoints.Endpoint, quote: string -> string, server: Server,
    st: Staging, run: EndpointRun)
    requires ep in Endpoints.All
    requires IsRunOf(SourceFor(s, ep, quote, server), st, run)
    ensures !run.stop.Raised?
    ensures run.loaded <==> |run.allData| > 0
    ensures Escaped(run) == if |run.allData| > 0 then Some(AttributeError("load_json")) else None
  {
    assert ep.pageSize <= MaxPageSize;
    var f := GetData(MainClient(s), ep.path, s.cnpj, run.page, ep.pageSize, quote, server);
    assert SourceFor(s, ep, quote, server)(run.page) == f.result;
  }
}

=== FILE: outcomes.dfy ===
/** Failure-carrying values shared by every part of the pipeline model.

    The Python code signals failure by raising exceptions; the model returns
    them as values instead. Only the exception classes the core raises or
    catches are represented. */
module Outcomes {

  /** Python's `None` / a present value. */
  datatype Option<+T> = None | Some(value: T)

  /** Why the VMHub client gave up on a request (`VMHubAPIError`). */
  datatype APIFailure =
    | RetriesExhausted(maxRetries: int)  // every attempt of the retry budget failed
    | ServerErrorOnLaterPage             // HTTP 500 for a request with pagina > 0
    | UnexpectedFormat                   // the response body was not a JSON array

  /** The exceptions raised by the modelled code. */
  datatype Error =
    | ValueError(message: string)
    | VMHubAPIError(failure: APIFailure)
    | KeyError(key: string)
    | AttributeError(name: string)  // a method the object does not define

  /** Either a returned value or a raised exception. */
  datatype Result<+T> = Ok(value: T) | Err(error: Error)
}

=== FILE: settings.dfy ===
/** `Settings` (src/config/settings.py): the five required environment
    variables and their validation. The process environment is a map from
    variable name to value; a name outside the map is unset, as
    `os.getenv` returns `None` for it. */
module Config {
  import opened Outcomes
  import opened Text

  type Environment = map<string, string>

  /** The variables `_validate_settings` insists on, in declaration order. */
  const RequiredVars: seq<string> :=
    ["VMHUB_API_KEY", "VMHUB_CNPJ", "VMHUB_BASE_URL", "GCP_PROJECT_ID", "GCS_BUCKET_NAME"]

  const MissingPrefix := "Missing required environment variables: "

  datatype Settings = Settings(
    apiKey: string,
    cnpj: string,
    baseUrl: string,
    projectId: string,
    bucketName: string)

  /** `getattr(self, var)` is truthy: set and not the empty string. */
  predicate IsSet(env: Environment, name: string) {
    name in env && env[name] != ""
  }

  function Get(env: Environment, name: string): string {
    if name in env then env[name] else ""
  }

  /** The required variables that are unset or empty, in declaration order. */
  function Missing(env: Environment): (m: seq<string>)
    ensures forall v :: v in m <==> v in RequiredVars && !IsSet(env, v)
    ensures IsSubsequence(m, RequiredVars)
  {
    Filter(RequiredVars, v => !IsSet(env, v))
  }

  function MissingMessage(missing: seq<string>): string {
    MissingPrefix + Join(missing, ", ")
  }

  /** `Settings()`: read the five variables, then validate them. */
  function LoadSettings(env: Environment): (r: Result<Settings>)
    ensures r.Err? <==> exists v :: v in RequiredVars && !IsSet(env, v)
    ensures r.Err? ==> r.error == ValueError(MissingMessage(Missing(env)))
    ensures r.Ok? ==>
      && r.value.apiKey == Get(env, "VMHUB_API_KEY") != ""
      && r.value.cnpj == Get(env, "VMHUB_CNPJ") != ""
      && r.value.baseUrl == Get(env, "VMHUB_BASE_URL") != ""
      && r.value.projectId == Get(env, "GCP_PROJECT_ID") != ""
      && r.value.bucketName == Get(env, "GCS_BUCKET_NAME") != ""
  {
    var missing := Missing(env);
    if |missing| > 0 then
      Err(ValueError(MissingMessage(missing)))
    else
      assert forall i :: 0 <= i < |RequiredVars| ==> RequiredVars[i] !in missing;
      Ok(Settings(
        Get(env, "VMHUB_API_KEY"), Get(env, "VMHUB_CNPJ"), Get(env, "VMHUB_BASE_URL"),
        Get(env, "GCP_PROJECT_ID"), Get(env, "GCS_BUCKET_NAME")))
  }

  /** Removes the single space `", ".join` puts after each comma. */
  function DropLeadingSpace(s: string): string {
    if StartsWith(s, " ") then s[1..] else s
  }

  /** Reads the variable names back out of a "missing variables" message. */
  function ReadMissing(message: string): seq<string>
    requires StartsWith(message, MissingPrefix)
  {
    var pieces := Split(message[|MissingPrefix|..], ',');
    [pieces[0]] + seq(|pieces| - 1, i requires 0 <= i < |pieces| - 1 => DropLeadingSpace(pieces[i + 1]))
  }

  /** A non-empty list of comma-free names can be read back from the
      message built from it. */
  lemma {:induction false} ReadMissingMessage(missing: seq<string>)
    requires |missing| >= 1
    requires forall i :: 0 <= i < |missing| ==> ',' !in missing[i]
    ensures StartsWith(MissingMessage(missing), MissingPrefix)
    ensures ReadMissing(MissingMessage(missing)) == missing
  {
    var message := MissingMessage(missing);
    assert message[|MissingPrefix|..] == Join(missing, ", ");
    assert ", " == [','] + " ";
    SplitJoin(missing, ',', " ");
    var pieces := Split(message[|MissingPrefix|..], ',');
    assert pieces == [missing[0]] + PrefixEach(" ", missing[1..]);
    forall j | 1 <= j < |pieces|
      ensures DropLeadingSpace(pieces[j]) == missing[j]
    {
      assert pieces[j] == " " + missing[j];
    }
  }

  lemma RequiredVarsCommaFree()
    ensures forall v :: v in RequiredVars ==> ',' !in v
  {
    forall v | v in RequiredVars
      ensures ',' !in v
    {
      var i :| 0 <= i < |RequiredVars| && RequiredVars[i] == v;
    }
  }

  /** Once some required variable `v` is unset or empty, validation fails,
      and its error lists exactly the unset or empty required variables, in
      declaration order. */
  lemma ValidationErrorListsMissing(env: Environment, v: string)
    requires v in RequiredVars && !IsSet(env, v)
    ensures LoadSettings(env).Err?
    ensures StartsWith(LoadSettings(env).error.message, MissingPrefix)
    ensures ReadMissing(LoadSettings(env).error.message) == Missing(env)
  {
    var missing := Missing(env);
    assert LoadSettings(env).error.message == MissingMessage(missing) by {
      assert v in missing;
    }
    MissingCommaFree(env);
    ReadMissingMessage(missing);
  }

  lemma MissingCommaFree(env: Environment)
    ensures forall i :: 0 <= i < |Missing(env)| ==> ',' !in Missing(env)[i]
  {
    var missing := Missing(env);
    assert forall i :: 0 <= i < |missing| ==> missing[i] in RequiredVars;
    RequiredVarsCommaFree();
  }
}

=== FILE: text.dfy ===
/** The Python string operations the pipeline relies on, written out over
    `seq<char>`: `str.rstrip`, `str.replace(c, '')`, `str.join`,
    `str.split`, `str(int)` and the zero padding of `strftime`. Each comes
    with the inverse or characterisation the rest of the model uses. */
module Text {

  /** `s.rstrip(c)` for a single character `c`: every trailing `c` is dropped. */
  function RStrip(s: string, c: char): (r: string)
    ensures r <= s
    ensures |r| == 0 || r[|r| - 1] != c
    ensures forall i :: |r| <= i < |s| ==> s[i] == c
    decreases |s|
  {
    if |s| > 0 && s[|s| - 1] == c then RStrip(s[..|s| - 1], c) else s
  }

  /** `s.replace(c, '')`: every occurrence of `c` is removed. */
  function RemoveAll(s: string, c: char): (r: string)
    decreases |s|
  {
    if |s| == 0 then "" else (if s[0] == c then "" else [s[0]]) + RemoveAll(s[1..], c)
  }

  /** `a` can be obtained from `b` by deleting elements. */
  predicate IsSubsequence<T(==)>(a: seq<T>, b: seq<T>)
    decreases |b|
  {
    || |a| == 0
    || (&& |b| > 0
        && ((a[0] == b[0] && IsSubsequence(a[1..], b[1..])) || IsSubsequence(a, b[1..])))
  }

  /** The elements of `s` satisfying `keep`, in their original order
      (a Python list comprehension with an `if`). */
  function Filter<T(==,!new)>(s: seq<T>, keep: T -> bool): (r: seq<T>)
    ensures |r| <= |s|
    ensures forall x :: x in r <==> x in s && keep(x)
    ensures IsSubsequence(r, s)
    decreases |s|
  {
    if |s| == 0 then []
    else
      var rest := Filter(s[1..], keep);
      if keep(s[0]) then [s[0]] + rest else rest
  }

  /** `sep.join(parts)`. */
  function Join(parts: seq<string>, sep: string): (r: string)
    decreases |parts|
  {
    if |parts| == 0 then ""
    else if |parts| == 1 then parts[0]
    else parts[0] + sep + Join(parts[1..], sep)
  }

  /** `s.split(c)` for a one-character separator: always at least one piece,
      and no piece contains the separator. */
  function Split(s: string, c: char): (r: seq<string>)
    ensures |r| >= 1
    ensures forall i :: 0 <= i < |r| ==> c !in r[i]
    decreases |s|
  {
    if |s| == 0 then [""]
    else
      var rest := Split(s[1..], c);
      if s[0] == c then [""] + rest else [[s[0]] + rest[0]] + rest[1..]
  }

  /** Splitting a separator-free prefix off the front of a string. */
  lemma {:induction false} SplitPrefix(a: string, t: string, c: char)
    requires c !in a
    ensures Split(a + t, c) == [a + Split(t, c)[0]] + Split(t, c)[1..]
    decreases |a|
  {
    var st := Split(t, c);
    if |a| > 0 {
      assert (a + t)[0] == a[0] && (a + t)[1..] == a[1..] + t;
      SplitPrefix(a[1..], t, c);
      var rest := Split(a[1..] + t, c);
      assert Split(a + t, c) == [[a[0]] + rest[0]] + rest[1..];
      assert [a[0]] + (a[1..] + st[0]) == a + st[0];
    } else {
      assert a + t == t;
      assert a + st[0] == st[0];
      assert st == [st[0]] + st[1..];
    }
  }

  /** `t` put in front of every element of `ps`. */
  function PrefixEach(t: string, ps: seq<string>): seq<string> {
    seq(|ps|, i requires 0 <= i < |ps| => t + ps[i])
  }

  /** Joining pieces with a separator that starts with `c` (and has no
      other `c`) and splitting the result at `c` gives the pieces back, all
      but the first carrying the rest of the separator in front. */
  lemma {:induction false} SplitJoin(parts: seq<string>, c: char, tail: string)
    requires |parts| >= 1
    requires forall i :: 0 <= i < |parts| ==> c !in parts[i]
    requires c !in tail
    ensures Split(Join(parts, [c] + tail), c) == [parts[0]] + PrefixEach(tail, parts[1..])
    decreases |parts|
  {
    var sep := [c] + tail;
    if |parts| == 1 {
      SplitPrefix(parts[0], "", c);
      assert Split("", c) == [""];
      assert parts[0] + "" == parts[0];
    } else {
      var p0 := parts[0];
      var r := Join(parts[1..], sep);
      var x := [c] + (tail + r);
      assert Join(parts, sep) == p0 + x;
      SplitPrefix(p0, x, c);
      SplitAtSeparator(tail + r, c);
      var a := Split(tail + r, c);
      assert Split(x, c) == [""] + a;
      assert Split(Join(parts, sep), c) == [p0] + a by {
        assert p0 + "" == p0;
      }
      SplitPrefix(tail, r, c);
      SplitJoin(parts[1..], c, tail);
      assert parts[1..][1..] == parts[2..];
      var s := Split(r, c);
      assert s == [parts[1]] + PrefixEach(tail, parts[2..]);
      assert a == [tail + parts[1]] + PrefixEach(tail, parts[2..]);
      PrefixEachCons(tail, parts[1..]);
    }
  }

  lemma SplitAtSeparator(t: string, c: char)
    ensures Split([c] + t, c) == [""] + Split(t, c)
  {
    assert ([c] + t)[0] == c && ([c] + t)[1..] == t;
  }

  lemma PrefixEachCons(t: string, ps: seq<string>)
    requires |ps| >= 1
    ensures PrefixEach(t, ps) == [t + ps[0]] + PrefixEach(t, ps[1..])
  {
  }

  /** The special case of a one-character separator: `Split` undoes `Join`. */
  lemma SplitJoinChar(parts: seq<string>, c: char)
    requires |parts| >= 1
    requires forall i :: 0 <= i < |parts| ==> c !in parts[i]
    ensures Split(Join(parts, [c]), c) == parts
  {
    SplitJoin(parts, c, "");
    assert [c] + "" == [c];
    assert forall i :: 0 <= i < |parts| - 1 ==> "" + parts[1..][i] == parts[1..][i];
    assert PrefixEach("", parts[1..]) == parts[1..];
    assert parts == [parts[0]] + parts[1..];
  }

  /** Joining `n` separator-free pieces puts exactly `n - 1` separators in
      the result. */
  lemma {:induction false} JoinSeparatorCount(parts: seq<string>, c: char)
    requires |parts| >= 1
    requires forall i :: 0 <= i < |parts| ==> c !in parts[i]
    ensures multiset(Join(parts, [c]))[c] == |parts| - 1
    decreases |parts|
  {
    assert multiset(parts[0])[c] == 0;
    if |parts| > 1 {
      JoinSeparatorCount(parts[1..], c);
      assert Join(parts, [c]) == parts[0] + [c] + Join(parts[1..], [c]);
    }
  }

  /** Position of the first `c` in `s`, or `|s|` when there is none. */
  function IndexOf(s: string, c: char): (i: nat)
    ensures i <= |s|
    ensures i < |s| ==> s[i] == c
    ensures forall j :: 0 <= j < i ==> s[j] != c
    decreases |s|
  {
    if |s| == 0 then 0 else if s[0] == c then 0 else 1 + IndexOf(s[1..], c)
  }

  predicate IsDigit(ch: char) {
    '0' <= ch <= '9'
  }

  predicate AllDigits(s: string) {
    forall i :: 0 <= i < |s| ==> IsDigit(s[i])
  }

  function DigitChar(d: nat): (ch: char)
    requires d < 10
    ensures IsDigit(ch)
  {
    ('0' as int + d) as char
  }

  /** `str(n)` for a non-negative integer: decimal digits, no leading zero. */
  function NatToString(n: nat): (s: string)
    ensures |s| >= 1 && AllDigits(s)
    ensures s[0] == '0' ==> n == 0
    decreases n
  {
    if n < 10 then [DigitChar(n)] else NatToString(n / 10) + [DigitChar(n % 10)]
  }

  /** `str(i)` for any integer. */
  function IntToString(i: int): string {
    if i < 0 then "-" + NatToString(-i) else NatToString(i)
  }

  /** The value of a string of decimal digits. */
  function ParseNat(s: string): nat
    requires AllDigits(s)
    decreases |s|
  {
    if |s| == 0 then 0 else ParseNat(s[..|s| - 1]) * 10 + (s[|s| - 1] as int - '0' as int)
  }

  /** Reading back the decimal rendering of `n` gives `n`. */
  lemma {:induction false} ParseNatToString(n: nat)
    ensures ParseNat(NatToString(n)) == n
    decreases n
  {
    if n >= 10 {
      var s := NatToString(n);
      assert s[..|s| - 1] == NatToString(n / 10);
      ParseNatToString(n / 10);
    }
  }

  function Zeros(k: nat): (s: string)
    ensures |s| == k && AllDigits(s)
    ensures forall i :: 0 <= i < k ==> s[i] == '0'
  {
    seq(k, _ => '0')
  }

  /** `digits` with zeros in front, up to at least `width` characters. */
  function PadLeft(digits: string, width: nat): (s: string)
    ensures |s| >= width && |s| >= |digits|
    ensures AllDigits(digits) ==> AllDigits(s)
  {
    if |digits| >= width then digits else Zeros(width - |digits|) + digits
  }

  /** A number zero-padded to at least `width` digits, as `%Y`, `%m`, `%d`
      and `%H` print the fields of a date. */
  function ZeroPad(n: nat, width: nat): (s: string)
    ensures AllDigits(s)
    ensures |s| >= width
  {
    PadLeft(NatToString(n), width)
  }

  /** Leading zeros do not change the value of a digit string. */
  lemma {:induction false} ParseLeadingZero(s: string)
    requires AllDigits(s)
    ensures ParseNat("0" + s) == ParseNat(s)
    decreases |s|
  {
    if |s| > 0 {
      var t := "0" + s;
      assert t[..|t| - 1] == "0" + s[..|s| - 1];
      ParseLeadingZero(s[..|s| - 1]);
    }
  }

  lemma {:induction false} ParseLeadingZeros(k: nat, s: string)
    requires AllDigits(s)
    ensures ParseNat(Zeros(k) + s) == ParseNat(s)
    decreases k
  {
    if k > 0 {
      assert Zeros(k) == "0" + Zeros(k - 1);
      assert Zeros(k) + s == "0" + (Zeros(k - 1) + s);
      ParseLeadingZero(Zeros(k - 1) + s);
      ParseLeadingZeros(k - 1, s);
    } else {
      assert Zeros(k) + s == s;
    }
  }

  /** Padding a digit string with zeros does not change its value. */
  lemma ParsePadLeft(digits: string, width: nat)
    requires AllDigits(digits)
    ensures ParseNat(PadLeft(digits, width)) == ParseNat(digits)
  {
    var padded := PadLeft(digits, width);
    if |digits| < width {
      var zeros := Zeros(width - |digits|);
      assert padded == zeros + digits;
      ParseLeadingZeros(width - |digits|, digits);
    } else {
      assert padded == digits;
    }
  }

  /** Reading back a zero-padded number gives the number. */
  lemma ParseZeroPad(n: nat, width: nat)
    ensures ParseNat(ZeroPad(n, width)) == n
  {
    ParseNatToString(n);
    ParsePadLeft(NatToString(n), width);
  }

  /** `s.startswith(p)`. */
  predicate StartsWith(s: string, p: string) {
    |p| <= |s| && s[..|p|] == p
  }

  /** `s.endswith(p)`. */
  predicate EndsWith(s: string, p: string) {
    |p| <= |s| && s[|s| - |p|..] == p
  }
}

=== FILE: vmhub_client.dfy ===
/** `VMHubClient` (src/api/vmhub_client.py): the retrying request loop with
    exponential backoff and jitter, and the page fetch built on it.

    The HTTP session is replaced by a `Server`: the outcome of the k-th
    attempt (counting from 0) at a given request. `random.uniform` is
    replaced by an `Rng`: the underlying draw in [0, 1] for the k-th sleep
    of a request. Sleeping is not an effect here: a `Trace` records how
    many attempts were sent, and `Backoffs` and `Sleeps` give the backoff
    in force and the delay for each sleep the client would take. */
module VMHub {
  import opened Outcomes
  import opened Text
  import opened Json

  const DefaultMaxBackoff: real := 32.0
  const DefaultBackoffFactor: real := 2.0

  /** The largest page the API serves. */
  const MaxPageSize: int := 10
  const PageSizeMessage := "page_size cannot exceed 10"

  /** The status that, on a page after the first, ends the retry loop at once. */
  const InternalServerError: int := 500

  datatype Client = Client(
    baseUrl: string,
    apiKey: string,
    maxRetries: int,
    initialBackoff: real,
    maxBackoff: real,
    backoffFactor: real)

  /** The query parameters `get_data` sends: CNPJ, pagina, quantidade. */
  datatype Params = Params(cnpj: string, pagina: int, quantidade: int)

  datatype Request = Request(verb: string, url: string, params: Option<Params>)

  /** What one `session.request` call ends in: a response that passed
      `raise_for_status` and decoded to JSON, an `HTTPError` carrying a
      status, or any other `RequestException` (connection error, timeout,
      undecodable body). */
  datatype Attempt = Answered(body: Value) | HttpError(status: int) | RequestFailure

  type Server = (Request, nat) -> Attempt
  type Rng = (Request, nat) -> real

  /** `random.random()` draws lie in [0, 1]. */
  ghost predicate ValidRng(rng: Rng) {
    forall req, k :: 0.0 <= rng(req, k) <= 1.0
  }

  /** `VMHubClient(...)`: the base URL is stored without trailing slashes. */
  function NewClient(
    baseUrl: string, apiKey: string, maxRetries: int,
    initialBackoff: real, maxBackoff: real, backoffFactor: real): (c: Client)
    ensures c.baseUrl <= baseUrl
    ensures |c.baseUrl| == 0 || c.baseUrl[|c.baseUrl| - 1] != '/'
    ensures forall i :: |c.baseUrl| <= i < |baseUrl| ==> baseUrl[i] == '/'
    ensures c.apiKey == apiKey && c.maxRetries == maxRetries
    ensures c.initialBackoff == initialBackoff && c.maxBackoff == maxBackoff
    ensures c.backoffFactor == backoffFactor
  {
    Client(RStrip(baseUrl, '/'), apiKey, maxRetries, initialBackoff, maxBackoff, backoffFactor)
  }

  /** The URL every attempt of a request to `endpoint` goes to. */
  function Url(c: Client, endpoint: string): string {
    c.baseUrl + "/" + endpoint
  }

  /** `params and params.get('pagina', 0) > 0`. */
  predicate LaterPage(params: Option<Params>) {
    params.Some? && params.value.pagina > 0
  }

  /** A failed attempt the loop answers with a sleep and a new attempt, as
      long as retries remain. */
  predicate Retryable(req: Request, a: Attempt) {
    !a.Answered? && !(a == HttpError(InternalServerError) && LaterPage(req.params))
  }

  function Min(a: real, b: real): real {
    if a <= b then a else b
  }

  /** `random.uniform(a, b)` given the underlying draw `u`. */
  function Uniform(a: real, b: real, u: real): real {
    a + (b - a) * u
  }

  /** `min(current_backoff + uniform(0, 0.1 * current_backoff), max_backoff)`. */
  function SleepTime(backoff: real, maxBackoff: real, u: real): real {
    Min(backoff + Uniform(0.0, 0.1 * backoff, u), maxBackoff)
  }

  /** What one call of the retry loop did: how many attempts it sent and
      the outcome. */
  datatype Trace = Trace(attempts: nat, result: Result<Value>)

  /** What the loop does once attempt `retry` of `req` ended in `a`: stop
      with an outcome (`Some`), or sleep and try again (`None`). */
  function AfterAttempt(c: Client, req: Request, retry: nat, a: Attempt): (r: Option<Result<Value>>)
    ensures r.None? <==> Retryable(req, a) && retry < c.maxRetries
    ensures r.Some? && r.value.Ok? ==> a == Answered(r.value.value)
    ensures r.Some? && r.value.Err? ==>
      && !a.Answered?
      && (|| (r.value.error == VMHubAPIError(RetriesExhausted(c.maxRetries)) && retry >= c.maxRetries)
          || (&& r.value.error == VMHubAPIError(ServerErrorOnLaterPage)
              && a == HttpError(InternalServerError)
              && LaterPage(req.params)
              && retry < c.maxRetries))
  {
    if a.Answered? then Some(Ok(a.body))
    else if retry + 1 > c.maxRetries then Some(Err(VMHubAPIError(RetriesExhausted(c.maxRetries))))
    else if a == HttpError(InternalServerError) && LaterPage(req.params) then
      Some(Err(VMHubAPIError(ServerErrorOnLaterPage)))
    else None
  }

  /** The attempts the retry loop still makes once `retry` attempts have
      failed. */
  function Attempts(c: Client, req: Request, server: Server, retry: nat): (t: Trace)
    decreases if retry <= c.maxRetries then c.maxRetries + 1 - retry else 0
    ensures t.attempts == 0 <==> retry > c.maxRetries
    ensures t.attempts == 0 ==> t.result == Ok(Null)
    ensures t.attempts > 0 ==> retry + t.attempts <= c.maxRetries + 1
    ensures forall k :: retry <= k < retry + t.attempts - 1 ==> AfterAttempt(c, req, k, server(req, k)).None?
    ensures t.attempts > 0 ==>
      AfterAttempt(c, req, retry + t.attempts - 1, server(req, retry + t.attempts - 1)) == Some(t.result)
  {
    if retry > c.maxRetries then
      Trace(0, Ok(Null))  // the while loop ends without returning: Python's None
    else
      match AfterAttempt(c, req, retry, server(req, retry))
      case Some(outcome) => Trace(1, outcome)
      case None =>
        var rest := Attempts(c, req, server, retry + 1);
        Trace(1 + rest.attempts, rest.result)
  }

  /** The number of sleeps in a trace: one after every attempt but the last. */
  function SleepCount(t: Trace): nat {
    if t.attempts == 0 then 0 else t.attempts - 1
  }

  /** The values `current_backoff` holds at the sleeps of a request: it
      starts at `initial_backoff` and is multiplied by `backoff_factor`
      after every sleep. */
  function Backoffs(c: Client, t: Trace): (b: seq<real>)
    ensures |b| == SleepCount(t)
  {
    GeometricSeq(c.initialBackoff, c.backoffFactor, SleepCount(t))
  }

  /** The delays a request sleeps: after its failed attempt k, `SleepTime`
      of the backoff then in force and the k-th draw. */
  function Sleeps(c: Client, req: Request, rng: Rng, backoffs: seq<real>): (s: seq<real>)
    ensures |s| == |backoffs|
  {
    seq(|backoffs|, k requires 0 <= k < |backoffs| => SleepTime(backoffs[k], c.maxBackoff, rng(req, k)))
  }

  /** `_make_request_with_backoff(method, endpoint, params)`. */
  function MakeRequest(
    c: Client, verb: string, endpoint: string, params: Option<Params>,
    server: Server): (t: Trace)
    ensures c.maxRetries < 0 ==> t == Trace(0, Ok(Null))
    ensures c.maxRetries >= 0 ==> 1 <= t.attempts <= c.maxRetries + 1
    ensures forall k :: 0 <= k < t.attempts - 1 ==>
      Retryable(Request(verb, Url(c, endpoint), params), server(Request(verb, Url(c, endpoint), params), k))
    ensures t.result.Ok? && t.attempts > 0 ==>
      server(Request(verb, Url(c, endpoint), params), t.attempts - 1) == Answered(t.result.value)
    ensures t.result.Err? ==>
      t.attempts >= 1 && !server(Request(verb, Url(c, endpoint), params), t.attempts - 1).Answered?
    ensures t.result.Err? ==>
      || (t.result.error == VMHubAPIError(RetriesExhausted(c.maxRetries)) && t.attempts == c.maxRetries + 1)
      || (&& t.result.error == VMHubAPIError(ServerErrorOnLaterPage)
          && LaterPage(params)
          && server(Request(verb, Url(c, endpoint), params), t.attempts - 1) == HttpError(InternalServerError)
          && t.attempts <= c.maxRetries)
  {
    Attempts(c, Request(verb, Url(c, endpoint), params), server, 0)
  }

  /** The first answered attempt is returned at once: nothing is sent and
      nobody sleeps after it. */
  lemma FirstAnswerReturned(c: Client, req: Request, server: Server, j: nat)
    requires j <= c.maxRetries
    requires server(req, j).Answered?
    requires forall k :: 0 <= k < j ==> Retryable(req, server(req, k))
    ensures Attempts(c, req, server, 0).result == Ok(server(req, j).body)
    ensures Attempts(c, req, server, 0).attempts == j + 1
    ensures SleepCount(Attempts(c, req, server, 0)) == j
  {
  }

  /** When every attempt of the budget fails and none is a 500 on a later
      page, exactly `max_retries + 1` attempts are sent, `max_retries`
      sleeps are taken, and the retries-exhausted error is raised. */
  lemma AllRetryableFailuresExhaust(c: Client, req: Request, server: Server)
    requires c.maxRetries >= 0
    requires forall k :: 0 <= k <= c.maxRetries ==> Retryable(req, server(req, k))
    ensures Attempts(c, req, server, 0).result
      == Err(VMHubAPIError(RetriesExhausted(c.maxRetries)))
    ensures Attempts(c, req, server, 0).attempts == c.maxRetries + 1
    ensures SleepCount(Attempts(c, req, server, 0)) == c.maxRetries
  {
    var t := Attempts(c, req, server, 0);
    assert Retryable(req, server(req, t.attempts - 1));
  }

  /** If no attempt of the budget is answered, the request raises. */
  lemma NoAnswerRaises(c: Client, req: Request, server: Server)
    requires c.maxRetries >= 0
    requires forall k :: 0 <= k <= c.maxRetries ==> !server(req, k).Answered?
    ensures Attempts(c, req, server, 0).result.Err?
    ensures Attempts(c, req, server, 0).result.error.VMHubAPIError?
  {
    var t := Attempts(c, req, server, 0);
    assert !server(req, t.attempts - 1).Answered?;
  }

  /** A 500 on a request for a page after the first raises at once, without
      a sleep after it, unless that attempt used up the retry budget. */
  lemma LaterPageServerErrorRaises(c: Client, req: Request, server: Server, j: nat)
    requires LaterPage(req.params)
    requires j < c.maxRetries
    requires server(req, j) == HttpError(InternalServerError)
    requires forall k :: 0 <= k < j ==> Retryable(req, server(req, k))
    ensures Attempts(c, req, server, 0).result
      == Err(VMHubAPIError(ServerErrorOnLaterPage))
    ensures Attempts(c, req, server, 0).attempts == j + 1
    ensures SleepCount(Attempts(c, req, server, 0)) == j
  {
  }

  function Pow(x: real, n: nat): real {
    if n == 0 then 1.0 else x * Pow(x, n - 1)
  }

  /** The first `n` terms of the geometric sequence starting at `b` with
      ratio `f`. */
  function GeometricSeq(b: real, f: real, n: nat): (s: seq<real>)
    ensures |s| == n
    decreases n
  {
    if n == 0 then [] else [b] + GeometricSeq(b * f, f, n - 1)
  }

  lemma GeometricSeqCons(b: real, f: real, next: real, m: nat)
    requires next == b * f
    ensures GeometricSeq(b, f, m + 1) == [b] + GeometricSeq(next, f, m)
  {
  }

  /** The k-th term of the sequence is `b * f^k`. */
  lemma {:induction false} GeometricSeqTerm(b: real, f: real, n: nat, k: nat)
    requires k < n
    ensures GeometricSeq(b, f, n)[k] == b * Pow(f, k)
    decreases k
  {
    GeometricSeqCons(b, f, b * f, n - 1);
    if k > 0 {
      GeometricSeqTerm(b * f, f, n - 1, k - 1);
      PowStep(b, f, k);
    }
  }

  lemma PowStep(b: real, f: real, k: nat)
    requires k > 0
    ensures (b * f) * Pow(f, k - 1) == b * Pow(f, k)
  {
    var p := Pow(f, k - 1);
    assert Pow(f, k) == f * p;
    MulAssoc(b, f, p);
  }

  /** Each term is the previous one times the ratio. */
  lemma {:induction false} GeometricSeqStep(b: real, f: real, n: nat, k: nat)
    requires k + 1 < n
    ensures GeometricSeq(b, f, n)[k + 1] == GeometricSeq(b, f, n)[k] * f
    decreases k
  {
    GeometricSeqCons(b, f, b * f, n - 1);
    if k > 0 {
      GeometricSeqStep(b * f, f, n - 1, k - 1);
    }
  }

  /** A non-negative start and ratio give non-negative terms. */
  lemma {:induction false} GeometricSeqNonNegative(b: real, f: real, n: nat, k: nat)
    requires b >= 0.0 && f >= 0.0
    requires k < n
    ensures GeometricSeq(b, f, n)[k] >= 0.0
    decreases k
  {
    GeometricSeqCons(b, f, b * f, n - 1);
    if k > 0 {
      MulNonNegative(b, f);
      GeometricSeqNonNegative(b * f, f, n - 1, k - 1);
    }
  }

  /** The backoff before the k-th sleep of a request is
      `initial_backoff * backoff_factor^k`. */
  lemma BackoffIsGeometric(c: Client, verb: string, endpoint: string, params: Option<Params>, server: Server)
    ensures forall k :: 0 <= k < |Backoffs(c, MakeRequest(c, verb, endpoint, params, server))| ==>
      Backoffs(c, MakeRequest(c, verb, endpoint, params, server))[k]
        == c.initialBackoff * Pow(c.backoffFactor, k)
  {
    var backoffs := Backoffs(c, MakeRequest(c, verb, endpoint, params, server));
    forall k | 0 <= k < |backoffs|
      ensures backoffs[k] == c.initialBackoff * Pow(c.backoffFactor, k)
    {
      GeometricSeqTerm(c.initialBackoff, c.backoffFactor, |backoffs|, k);
    }
  }

  lemma MulAssoc(a: real, b: real, d: real)
    ensures (a * b) * d == a * (b * d)
  {
  }

  lemma MulNonNegative(a: real, b: real)
    requires a >= 0.0 && b >= 0.0
    ensures a * b >= 0.0
  {
  }

  lemma JitterBounds(backoff: real, u: real)
    requires backoff >= 0.0 && 0.0 <= u <= 1.0
    ensures 0.0 <= Uniform(0.0, 0.1 * backoff, u) <= 0.1 * backoff
  {
    MulNonNegative(0.1 * backoff, u);
    MulNonNegative(0.1 * backoff, 1.0 - u);
  }

  /** Every sleep of a request lies between `min(current_backoff,
      max_backoff)` and `max_backoff`, for non-negative backoff settings. */
  lemma SleepBounds(c: Client, req: Request, server: Server, rng: Rng)
    requires ValidRng(rng)
    requires c.initialBackoff >= 0.0 && c.backoffFactor >= 0.0
    ensures var backoffs := Backoffs(c, Attempts(c, req, server, 0));
      forall k :: 0 <= k < |backoffs| ==>
        Min(backoffs[k], c.maxBackoff) <= Sleeps(c, req, rng, backoffs)[k] <= c.maxBackoff
  {
    var backoffs := Backoffs(c, Attempts(c, req, server, 0));
    var sleeps := Sleeps(c, req, rng, backoffs);
    forall k | 0 <= k < |backoffs|
      ensures Min(backoffs[k], c.maxBackoff) <= sleeps[k] <= c.maxBackoff
    {
      GeometricSeqNonNegative(c.initialBackoff, c.backoffFactor, |backoffs|, k);
      JitterBounds(backoffs[k], rng(req, k));
    }
  }

  /** When the factor is at least 1.1 the growth of the backoff outweighs
      the jitter, so successive sleeps never get shorter. */
  lemma SleepsNonDecreasing(c: Client, req: Request, server: Server, rng: Rng)
    requires ValidRng(rng)
    requires c.initialBackoff >= 0.0 && c.backoffFactor >= 1.1
    ensures var backoffs := Backoffs(c, Attempts(c, req, server, 0));
      forall k :: 0 <= k < |backoffs| - 1 ==>
        Sleeps(c, req, rng, backoffs)[k] <= Sleeps(c, req, rng, backoffs)[k + 1]
  {
    var backoffs := Backoffs(c, Attempts(c, req, server, 0));
    var sleeps := Sleeps(c, req, rng, backoffs);
    forall k | 0 <= k < |backoffs| - 1
      ensures sleeps[k] <= sleeps[k + 1]
    {
      var b := backoffs[k];
      GeometricSeqNonNegative(c.initialBackoff, c.backoffFactor, |backoffs|, k);
      GeometricSeqStep(c.initialBackoff, c.backoffFactor, |backoffs|, k);
      assert backoffs[k + 1] == b * c.backoffFactor;
      assert b * c.backoffFactor >= 1.1 * b by {
        MulNonNegative(b, c.backoffFactor - 1.1);
      }
      assert 0.0 <= rng(req, k) <= 1.0 && 0.0 <= rng(req, k + 1) <= 1.0;
      SleepTimeGrows(b, backoffs[k + 1], c.maxBackoff, rng(req, k), rng(req, k + 1));
    }
  }

  /** No sleep exceeds `max_backoff`, whatever the backoff and the draw. */
  lemma SleepTimeCapped(backoff: real, maxBackoff: real, u: real)
    ensures SleepTime(backoff, maxBackoff, u) <= maxBackoff
  {
    var x := backoff + Uniform(0.0, 0.1 * backoff, u);
    assert SleepTime(backoff, maxBackoff, u) == Min(x, maxBackoff);
  }

  /** A backoff grown by at least 10% sleeps at least as long, whatever
      the two draws. */
  lemma SleepTimeGrows(b: real, next: real, maxBackoff: real, u: real, v: real)
    requires b >= 0.0 && next >= 1.1 * b
    requires 0.0 <= u <= 1.0 && 0.0 <= v <= 1.0
    ensures SleepTime(b, maxBackoff, u) <= SleepTime(next, maxBackoff, v)
  {
    JitterBounds(b, u);
    JitterBounds(next, v);
  }

  function Sum(s: seq<real>): real {
    if |s| == 0 then 0.0 else s[0] + Sum(s[1..])
  }

  lemma {:induction false} SumBound(s: seq<real>, m: real)
    requires forall k :: 0 <= k < |s| ==> s[k] <= m
    ensures Sum(s) <= |s| as real * m
  {
    if |s| > 0 {
      SumBound(s[1..], m);
    }
  }

  /** The time one request spends sleeping is at most
      `max_retries * max_backoff`. */
  lemma TotalSleepBound(c: Client, req: Request, server: Server, rng: Rng)
    requires c.maxBackoff >= 0.0
    ensures Sum(Sleeps(c, req, rng, Backoffs(c, Attempts(c, req, server, 0))))
      <= (if c.maxRetries < 0 then 0.0 else c.maxRetries as real * c.maxBackoff)
  {
    var backoffs := Backoffs(c, Attempts(c, req, server, 0));
    var sleeps := Sleeps(c, req, rng, backoffs);
    forall k | 0 <= k < |sleeps|
      ensures sleeps[k] <= c.maxBackoff
    {
      SleepTimeCapped(backoffs[k], c.maxBackoff, rng(req, k));
    }
    SumBound(sleeps, c.maxBackoff);
    if c.maxRetries >= 0 {
      MulNonNegative((c.maxRetries - |sleeps|) as real, c.maxBackoff);
    }
  }

  /** What `get_data` returned or raised, and how many attempts it sent. */
  datatype PageFetch = PageFetch(attempts: nat, result: Result<seq<Value>>)

  /** The request `get_data` issues for a page. `quote` is
      `urllib.parse.quote`, left uninterpreted. */
  function PageRequest(c: Client, endpoint: string, cnpj: string, page: int, pageSize: int, quote: string -> string): Request {
    Request("GET", Url(c, endpoint), Some(Params(quote(cnpj), page, pageSize)))
  }

  /** `get_data(endpoint, cnpj, page, page_size)`. */
  function GetData(
    c: Client, endpoint: string, cnpj: string, page: int, pageSize: int,
    quote: string -> string, server: Server): (f: PageFetch)
    ensures pageSize > MaxPageSize ==> f == PageFetch(0, Err(ValueError(PageSizeMessage)))
    ensures pageSize <= MaxPageSize ==> f.attempts == MakeRequest(c, "GET", endpoint, PageRequest(c, endpoint, cnpj, page, pageSize, quote).params, server).attempts
    ensures f.result.Ok? ==>
      && f.attempts > 0
      && server(PageRequest(c, endpoint, cnpj, page, pageSize, quote), f.attempts - 1) == Answered(Arr(f.result.value))
    ensures f.result.Err? && pageSize <= MaxPageSize ==> f.result.error.VMHubAPIError?
    ensures pageSize <= MaxPageSize ==>
      var t := MakeRequest(c, "GET", endpoint, PageRequest(c, endpoint, cnpj, page, pageSize, quote).params, server);
      && (t.result.Ok? && t.result.value.Arr? ==> f.result == Ok(t.result.value.items))
      && (t.result.Err? ==> f.result == Err(t.result.error))
    ensures pageSize <= MaxPageSize ==>
      (f.result == Err(VMHubAPIError(UnexpectedFormat)) <==>
       var t := MakeRequest(c, "GET", endpoint, PageRequest(c, endpoint, cnpj, page, pageSize, quote).params, server);
       t.result.Ok? && !t.result.value.Arr?)
  {
    if pageSize > MaxPageSize then
      PageFetch(0, Err(ValueError(PageSizeMessage)))
    else
      var req := PageRequest(c, endpoint, cnpj, page, pageSize, quote);
      var t := MakeRequest(c, "GET", endpoint, req.params, server);
      match t.result
      case Err(e) => PageFetch(t.attempts, Err(e))
      case Ok(body) =>
        if body.Arr? then PageFetch(t.attempts, Ok(body.items))
        else PageFetch(t.attempts, Err(VMHubAPIError(UnexpectedFormat)))
  }
}
